=== FILE: README.md ===
# DAMWallet movement ledger in Dafny

A model of the movement ledger of DAMWallet, a desktop personal-finance tracker. The model covers:

- **The record.** `model.Movimiento`: id, concept, amount and date, with its getters and setters and the conversion of the date to a midnight instant (`fechaToDate`).
- **The store.** `model.MovimientoDAO`:
  - the `CHECK` constraints of the `MOVIMIENTO` table, as a validity predicate;
  - table creation;
  - insert, delete by id, lookup by id and read, over an abstract database. The database is a map from ID to row plus the `AUTOINCREMENT` counter.
- **The session.** `controller.MovimientoController`:
  - the current filter and its Total → Mes → Año cycle;
  - the time window and newest-first order of `loadData`, and the balance it shows;
  - `calculateTotalBalance`;
  - the stack of deleted movements and undo;
  - the sign and id handling of `addMovimiento`;
  - the help-mode guard and step counter;
  - `splitTextInHalf`.
- **The view state the session drives.** `view.MovimientoView`:
  - the movement panels and the selected index;
  - the balance text and banner colour;
  - the filter labels and their `<html><u>` highlight markers;
  - the view's copy of the help flag and step;
  - the modular focus traversal of its dialogs.
- **The reports.** `model.informe.CSV` and `model.informe.Excel`:
  - the rows dated strictly after a cutoff, in input order, under a fixed header;
  - the CSV line format (`yyyy-MM-dd,concept,amount with two decimals`);
  - the Excel rows (`LocalDate.toString()`, the concept, the numeric amount);
  - the monthly and yearly cutoffs.

## How the model is built

Files and modules:

| file | module | models |
|---|---|---|
| `util.dfy` | `Util` | `Option`, `Min`/`Max`, two sequence facts |
| `text.dfy` | `Text` | decimal digits, `trim`, `lastIndexOf`/`indexOf`, `String.replace` with `""`, `String.format("%.2f")` |
| `dates.dfy` | `Dates` | `LocalDate`, `GregorianCalendar` fields and epoch milliseconds, `minusMonths(1)`, `minusYears(1)`, `toString()` and the `yyyy-MM-dd` pattern |
| `movimiento.dfy` | `Movimientos` | `Movimiento` |
| `dao.dfy` | `Dao` | `MovimientoDAO` |
| `balance.dfy` | `Balance` | the summing loops and the sum over a set of rows |
| `view.dfy` | `View` | `MovimientoView` |
| `controller.dfy` | `Controller` | `MovimientoController` |
| `informe.dfy` | `Informe` | the row selection and cutoffs both reports share |
| `csv.dfy` | `Csv` | `CSV` |
| `excel.dfy` | `Excel` | `Excel` |

Modelling choices:

- **The store is pure.** Each DAO call is a function from a database value to a new database value and the Java result.
- **The `reachable` flag.** A boolean `reachable` (or a `World` field) stands for "opening the connection and running the statement did not throw `SQLException`". Every `catch` branch of the source is reached through it, or through a missing table. `crearBaseDeDatos` opens two connections, so it takes two flags: `reachable` for the first and `createOk` for the `CREATE TABLE`.
- **Row order.** A scan returns rows in ascending ID order. `ORDER BY FECHA DESC` breaks ties between equal dates by ascending ID, because SQLite leaves that order unspecified.
- **Controller events.** Each event handler is a function from one `App` (database, filter, help flag and step, undo stack, view) to the next. The events are Tab, a filter-label click, add, Ctrl+Z, F1, the help and "Continuar..." buttons, the arrow keys, Supr, and a click on a panel's delete button.
- **What each event reads from outside.** A `World` value supplies:
  - the clock as SQLite's `strftime('%s','now')` reads it;
  - whether each database call of the event works.
- **Dialog answers.** The answers to the dialogs are fields of the event.
- **Amounts** are `real`, that is, exact rationals.
- **Dates** are proleptic Gregorian. Instants are UTC epoch milliseconds.

Behaviour of the code worth knowing:

- **Undo on an empty stack.** It does nothing; no error is reported (`src/controller/MovimientoController.java:175-186`).
- **What a delete–undo round trip restores.** It restores the concept, the amount and the date, but:
  - the `FECHA` instant comes back as the midnight of its day, because the snapshot holds a `LocalDate`;
  - the row gets a new ID.
- **A failed re-insert loses the snapshot.** The pop happens before the write.
- **Help mode.** The controller's flag blocks `loadData`, `cycleFilter`, the filter clicks, add (button and Ctrl+N) and Ctrl+Z. The arrow keys and Supr are blocked by the view's copy of the flag. The help button is hidden while the view is in help mode (`src/view/MovimientoView.java:1052`), so it cannot restart the tour.

## Model

| member | source | states |
|---|---|---|
| Dao.TwoDecimalsIsCents | src/model/MovimientoDAO.java:23 | on an exact amount, the `(CANTIDAD*100) = CAST(CANTIDAD*100 AS INTEGER)` check holds exactly when the amount is a whole number of hundredths |
| Dao.Trunc | src/model/MovimientoDAO.java:23 | `CAST(... AS INTEGER)` truncates toward zero: within one of the value, on the side of zero |
| Dao.CrearBaseDeDatos | src/model/MovimientoDAO.java:27-49 | returns whether the first connection opened; independently, the table exists afterwards exactly when it existed before or the `CREATE TABLE` ran, its errors being swallowed; never changes existing rows or the counter; keeps the table invariant |
| Dao.CrearIdempotent | src/model/MovimientoDAO.java:27-49 | creating the database again leaves the rows as they were, and once a `CREATE TABLE` has run a second call changes nothing |
| Dao.CrearResultNotTable | src/model/MovimientoDAO.java:27-49 | the result does not report the table: true with no table when `CREATE TABLE` fails, false with the table when only the first connection fails |
| Dao.EscribirMovimiento | src/model/MovimientoDAO.java:19-85 | succeeds exactly when the store is reachable, the table exists, and the concept (1..25 chars), amount (bounds, non-zero, a whole number of hundredths as an exact amount) and date (from 1970) pass the CHECKs; on success adds exactly one row under the next ID, greater than every ID in the table; on failure changes nothing; keeps the table invariant |
| Dao.InsertIgnoresId | src/model/MovimientoDAO.java:75-78 | the insert never uses the record's own id |
| Dao.BorrarMovimiento | src/model/MovimientoDAO.java:87-98 | true whenever the statement runs, even if no row matched; removes only that ID and leaves every other row as it was; false and no change on an SQL error |
| Dao.ObtenerMovimientoPorId | src/model/MovimientoDAO.java:100-115 | null unless reachable and the ID is stored; otherwise a record with exactly that ID and the row's concept and amount, dated on the day of the stored instant |
| Dao.FechaRoundTrip | src/model/MovimientoDAO.java:60-62 | encoding a date with `fechaToDate` and decoding with the DAO's `MONTH + 1` reconstruction gives the original date |
| Dao.InsertThenLookup | src/model/MovimientoDAO.java:71-115 | a lookup of the ID a successful insert issued finds the written record carrying the new ID |
| Dao.RowidOrder | src/model/MovimientoDAO.java:51-69 | a table scan lists every ID once, in ascending order |
| Dao.Where | src/controller/MovimientoController.java:117-127 | the WHERE bound keeps exactly the scanned rows on or after the bound, in scan order |
| Dao.SortNewestSpec | src/controller/MovimientoController.java:128 | `ORDER BY FECHA DESC` returns the same IDs, each newer-or-equal row before older ones |
| Dao.QueryIds | src/controller/MovimientoController.java:117-130 | the result rows are exactly the rows passing the bound, without repeats, newest first or in ID order |
| Dao.LeerMovimientos | src/model/MovimientoDAO.java:51-69 | one record per result row, in result order, each decoded from its row; an empty array when the query fails |
| Dao.LeerContents | src/model/MovimientoDAO.java:51-69 | a successful read returns every passing row exactly once and nothing else |
| Dao.NewestFirstDates | src/controller/MovimientoController.java:128 | with the newest-first order no record is dated after one that precedes it |
| Movimientos.New | src/model/Movimiento.java:20-80 | every getter returns the constructor argument |
| Movimientos.Movimiento.SetId | src/model/Movimiento.java:42-44 | sets the id and leaves the other three fields alone |
| Movimientos.Movimiento.SetConcepto | src/model/Movimiento.java:56-58 | sets the concept and leaves the other three fields alone |
| Movimientos.Movimiento.SetCantidad | src/model/Movimiento.java:70-72 | sets the amount and leaves the other three fields alone |
| Movimientos.Movimiento.SetFecha | src/model/Movimiento.java:84-86 | sets the date and leaves the other three fields alone |
| Movimientos.SettersCommute | src/model/Movimiento.java:42-86 | setters of different fields commute, and setting a field to its own value changes nothing |
| Movimientos.Movimiento.FechaToDate | src/model/Movimiento.java:28-30 | the instant is a midnight, non-negative exactly for years from 1970 on |
| Dates.CalendarRoundTrip | src/model/MovimientoDAO.java:60-62 | the calendar fields of `new GregorianCalendar(y, m0, d)` read back as `y`, `m0` (0-based) and `d` |
| Dates.CalendarFieldsContain | src/model/MovimientoDAO.java:107-109 | every instant lies in the day starting at its calendar date's midnight |
| Dates.MillisNonNegative | src/model/MovimientoDAO.java:24 | the `FECHA >= 0` check accepts exactly the dates from 1970 on |
| Dates.EpochDayRoundTrip | src/model/MovimientoDAO.java:60-62 | day numbers and dates convert into each other both ways |
| Dates.EpochDayOrder | src/model/informe/CSV.java:46 | `isAfter` is the order of day numbers, and equal day numbers mean equal dates |
| Dates.MinusOneMonth | src/model/informe/CSV.java:29 | `minusMonths(1)` is strictly before the date and at most 31 days back |
| Dates.MinusOneYear | src/model/informe/CSV.java:33 | `minusYears(1)` is strictly before the date and 365 or 366 days back |
| Dates.PatternTextFields | src/model/informe/CSV.java:42-48 | for years 1..9999 the `yyyy-MM-dd` text has ten characters and its fields read back as year, month and day |
| Dates.IsoTextFields | src/model/informe/Excel.java:44 | for years 0..9999 `LocalDate.toString()` has that layout and reads back as the date |
| Text.Fixed2Reads | src/model/informe/CSV.java:48 | the `%.2f` text is a minus sign exactly for negative amounts, digits, a point and two digits, reading back as the half-up rounded hundredths |
| Text.NatTextRoundTrip | src/model/informe/CSV.java:48 | the decimal text of a number is all digits and reads back as the number |
| Text.TrimCharacterisation | src/controller/MovimientoController.java:736-737 | `trim` drops exactly the leading and trailing characters up to U+0020 (control characters included, Unicode spaces such as U+00A0 not) |
| Text.TrimIdempotent | src/controller/MovimientoController.java:736-737 | trimming twice is trimming once |
| Text.LastIndexOf | src/controller/MovimientoController.java:729 | `lastIndexOf(" ", from)` is the last space at or before `from`, or -1 when there is none |
| Text.IndexOf | src/controller/MovimientoController.java:731 | `indexOf(" ", from)` is the first space at or after `from`, or -1 when there is none |
| Text.RemoveAllKeeps | src/view/MovimientoView.java:1005 | `replace(pat, "")` passes text without the pattern's first character through unchanged |
| Balance.SumIsSumRows | src/controller/MovimientoController.java:132-135 | the left-to-right sum of records read once each, in any order, equals the sum of CANTIDAD over their rows |
| Balance.AddAmounts | src/controller/MovimientoController.java:132-135 | the accumulation loop returns the sum of the amounts |
| Balance.ReadSum | src/controller/MovimientoController.java:130-135 | the sum of a successful read is the sum over exactly the rows the WHERE bound selects; a failed read sums to 0 |
| Balance.CalculateTotalBalance | src/controller/MovimientoController.java:67-76 | the sum over every row of the table, whatever the filter; 0 when the read fails |
| Balance.SumRowsMove | src/controller/MovimientoController.java:155-186 | moving a row to a new ID with the same amount keeps the sum over all rows |
| Controller.QueryFor | src/controller/MovimientoController.java:117-128 | a lower bound for Mes and Año only, always newest first |
| Controller.FilterWindows | src/controller/MovimientoController.java:117-127 | Total shows every row, Mes the rows from 30 days before now, Año the rows from 365 days before; the Mes window lies inside the Año one |
| Controller.NextFilter | src/controller/MovimientoController.java:193-210 | the next filter is always one of the three and differs from the current one |
| Controller.FilterCyclePeriod | src/controller/MovimientoController.java:193-210 | three steps return to a known filter, two do not |
| Controller.LoadData | src/controller/MovimientoController.java:112-148 | nothing in help mode; otherwise only the view changes: one panel per visible movement in order, selection cleared, the `%.2f` sum, red exactly when the sum is negative |
| Controller.NotifyIrrelevant | src/controller/MovimientoController.java:137-145 | the observer's colour and the controller's colour agree, so notifying the view changes nothing |
| Controller.ShownBalance | src/controller/MovimientoController.java:117-138 | the balance shown is the sum of CANTIDAD over exactly the rows of the filter's window |
| Controller.ShownNewestFirst | src/controller/MovimientoController.java:128-147 | the movements shown come newest first |
| Controller.CycleFilter | src/controller/MovimientoController.java:191-213 | outside help mode: the next filter and its label highlighted; never touches the store, stack or help state |
| Controller.SelectFilter | src/controller/MovimientoController.java:742-794 | a label click outside help mode selects that filter and highlights it; in help mode nothing changes |
| Controller.DeleteMovimiento | src/controller/MovimientoController.java:155-170 | pushes the snapshot and deletes only when the lookup found the row and the delete succeeded; otherwise the session is unchanged |
| Controller.UndoDeleteMovimiento | src/controller/MovimientoController.java:175-186 | empty stack: no change; otherwise the stack loses exactly its top, even if the re-insert fails, and the store is the insert of that top |
| Controller.UndoPopsLastDelete | src/controller/MovimientoController.java:155-186 | an undo right after a successful delete restores the stack as it was |
| Controller.SnapshotValid | src/controller/MovimientoController.java:157-162 | a snapshot of a stored row passes the table's CHECKs again and writes back the same concept, amount and day |
| Controller.DeleteUndoRoundTrip | src/controller/MovimientoController.java:155-186 | delete then undo: the stack is back, the row returns with the same concept, amount and day under a new ID, and the total balance is unchanged |
| Controller.SignedAmount | src/controller/MovimientoController.java:422-429 | Gasto gives -\|x\|, Ingreso \|x\| |
| Controller.FormMovimiento | src/controller/MovimientoController.java:406-445 | a movement only when OK was pressed, the amount is not blank and parses, the date parses and the user confirms; id 0, the trimmed concept, the signed amount |
| Controller.AddMovimiento | src/controller/MovimientoController.java:404-459 | writes the form's movement and nothing else; every earlier exit leaves the session unchanged |
| Controller.BlankAmountRejected | src/controller/MovimientoController.java:410-411 | a blank amount never reaches the store |
| Controller.AddedRow | src/controller/MovimientoController.java:422-446 | a store change from add is one new row under a fresh ID, with the trimmed concept and the typed magnitude, negative exactly for Gasto |
| Controller.StartHelp | src/controller/MovimientoController.java:566-576 | help mode on at step 1 in controller and view, the first text split in two |
| Controller.EndHelp | src/controller/MovimientoController.java:711-718 | help mode off at step 0 in controller and view |
| Controller.NextHelpStep | src/controller/MovimientoController.java:596-705 | one step further; steps 2..6 show their text; step 7 ends help mode at step 0; controller and view keep agreeing on the help state |
| Controller.TriggerHelp | src/controller/MovimientoController.java:218-222 | starts help only when it is off |
| Controller.HelpTour | src/controller/MovimientoController.java:566-718 | after starting, five advances stay in help mode on steps 2..6 and the sixth leaves it at step 0, with the store untouched |
| Controller.HelpModeFreezes | src/controller/MovimientoController.java:461-560 | in help mode no event changes the store, the filter or the stack, and every event other than F1 and "Continuar..." leaves the session unchanged |
| Controller.SplitTextInHalf | src/controller/MovimientoController.java:727-740 | (text, "") without a space; otherwise the trimmed parts before and from the last space at or before the middle, or failing that the first space after it |
| Controller.ChosenSpaceUnique | src/controller/MovimientoController.java:728-732 | the split point is unique |
| Controller.SplitHalvesTrimmed | src/controller/MovimientoController.java:736-737 | both halves are trimmed |
| Controller.StepInv | src/controller/MovimientoController.java:461-794 | every event, the click on a panel's delete button included, keeps the session invariant: well-formed table, known filter with its label highlighted, selection in range, help state agreeing between controller and view |
| Controller.InitInv | src/controller/MovimientoController.java:25-60 | the session starts in the invariant |
| Controller.Init | src/controller/MovimientoController.java:39-59 | the constructor: filter Total, help off at step 0, an empty undo stack, the store as given, and the first `loadData` with no observer yet: one panel per movement of the Total window in order, no selection, the `%.2f` sum, red exactly below zero, the initial labels (TOTAL highlighted) |
| Controller.Step | src/controller/MovimientoController.java:461-560 | the listeners and key bindings with their guards; what they promise is proved in `Controller.HelpModeFreezes` (in help mode only F1 and "Continuar..." act, and nothing touches the store, filter or stack) and `Controller.StepInv` (every event keeps the session invariant) |
| Controller.PressDelete | src/view/MovimientoView.java:633-639 | Supr acts on the selected panel only; `Controller.DeletePathsAgree` proves it does what a click on that panel's delete button does, and `View.DeleteTarget` that without a selection nothing is deleted |
| Controller.ClickDeletePanel | src/view/MovimientoView.java:653-662 | a confirmed click on a panel's delete button; `Controller.DeletePathsAgree` proves it deletes that panel's movement whatever is selected, and `Controller.StepInv` that the session invariant survives it |
| View.MoveSelectionUp | src/view/MovimientoView.java:565-576 | no panels: nothing; from none to the last panel; one up; stays at the first panel; the selection stays in range |
| View.MoveSelectionDown | src/view/MovimientoView.java:578-589 | no panels: nothing; from none to the first panel; one down; stays at the last panel; the selection stays in range |
| View.UpDownInverse | src/view/MovimientoView.java:565-589 | inside the list a step down undoes a step up and back |
| View.DownFromNone | src/view/MovimientoView.java:578-589 | k presses of Down from no selection select panel min(k-1, n-1) |
| View.PanelOf | src/view/MovimientoView.java:902-940 | a panel carries the movement's id and shows its concept, `toString()` date and `%.2f` amount |
| View.SetMovements | src/view/MovimientoView.java:645-671 | one panel per movement in order, carrying its id, and the selection reset to none |
| View.DeleteTarget | src/view/MovimientoView.java:633-639 | the delete key acts only when the selection is a panel index, on that panel's movement |
| Controller.DeletePathsAgree | src/view/MovimientoView.java:653-662 | Supr does what a click on the selected panel's delete button does, and a confirmed click on any panel deletes that panel's movement whatever is selected |
| View.DeleteNeedsSelection | src/view/MovimientoView.java:633-648 | right after new movements nothing is deleted; after Down, the first movement; after Up, the last |
| View.Highlight | src/view/MovimientoView.java:1002-1007 | the selected label gains one more marker pair; each other label has its markers removed |
| View.StripWrapped | src/view/MovimientoView.java:1005 | removing the markers undoes any number of wraps of a marker-free name |
| View.HighlightShows | src/view/MovimientoView.java:1002-1007 | after a highlight exactly the selected label is wrapped and the others show their plain names |
| View.InitialLabelsShowTotal | src/view/MovimientoView.java:288 | the view starts with TOTAL highlighted |
| View.BannerColour | src/view/MovimientoView.java:51-60 | red #d63429 exactly below zero; blue #123EAF from zero up |
| View.OnBalanceChange | src/view/MovimientoView.java:51-60 | the `%.2f` balance and its colour, nothing else |
| View.SetBalance | src/view/MovimientoView.java:641-643 | the balance label shows the `%.2f` text of the amount, and nothing else in the view changes |
| View.UpdateBannerAndFiltersColor | src/view/MovimientoView.java:1347-1351 | the banner and filter colour becomes the given one, and nothing else in the view changes |
| View.SetHelpStep | src/view/MovimientoView.java:1042-1044 | the view's help step becomes the given one, and nothing else changes |
| View.EnterHelpMode | src/view/MovimientoView.java:1046-1090 | help mode on at step 1 with both help labels cleared; panels, selection, balance, colour and filter labels unchanged |
| View.ExitHelpMode | src/view/MovimientoView.java:1283-1312 | help mode off at step 0 with both help labels cleared; panels, selection, balance, colour and filter labels unchanged |
| View.UpdateHelpText | src/view/MovimientoView.java:1131-1133 | the two help labels show the two given texts, and nothing else changes |
| View.JavaRem | src/view/MovimientoView.java:488 | Java's `%` takes the sign of the dividend, lies within the divisor of zero, and differs from the dividend by a multiple of the divisor |
| View.JavaRemDetermined | src/view/MovimientoView.java:488 | those three facts single out one value: any candidate meeting them is Java's remainder |
| View.FocusNext | src/view/MovimientoView.java:487-490 | the next index, wrapping from the last to the first |
| View.FocusPrev | src/view/MovimientoView.java:493-496 | the previous index, wrapping from the first to the last; a component outside the order (-1) leads to the one before the last |
| View.FocusInverse | src/view/MovimientoView.java:487-496 | forward and backward traversal undo each other |
| View.FocusCycle | src/view/MovimientoView.java:487-490 | k steps forward land on (i + k) mod n |
| Informe.SelectedMembers | src/model/informe/CSV.java:45-46 | every reported movement comes from the list and is dated strictly after the cutoff, and every such movement is reported |
| Informe.SelectedConcat | src/model/informe/CSV.java:45-50 | selection works piecewise, so input order is kept |
| Informe.SameDayExcluded | src/model/informe/CSV.java:46 | a movement dated on the cutoff day is never reported |
| Informe.SelectedCount | src/model/informe/CSV.java:45-50 | as many rows as movements dated after the cutoff |
| Informe.CutoffsOrdered | src/model/informe/CSV.java:28-34 | the yearly cutoff is before the monthly one |
| Informe.MonthlyWithinYearly | src/model/informe/CSV.java:28-34 | the monthly rows are the monthly selection of the yearly rows |
| Csv.AppendRows | src/model/informe/CSV.java:45-50 | the loop appends the line of each movement dated after the cutoff, in order |
| Csv.GuardarArchivo | src/model/informe/CSV.java:36-52 | the header line and then those lines; the title plays no part |
| Csv.GuardarDatosMensuales | src/model/informe/CSV.java:28-30 | the report from today minus one month |
| Csv.GuardarDatosAnuales | src/model/informe/CSV.java:32-34 | the report from today minus one year |
| Csv.RowIsOneLine | src/model/informe/CSV.java:47-48 | a row whose concept has no newline is exactly one line |
| Csv.CsvShape | src/model/informe/CSV.java:39-50 | the file starts with the header even with no rows, and has one line per movement after the cutoff plus the header |
| Excel.GuardarArchivo | src/model/informe/Excel.java:31-55 | a sheet named after the title, the header row, then the rows of the movements after the cutoff |
| Excel.GuardarDatosMensuales | src/model/informe/Excel.java:22-24 | the sheet "Último Mes" from today minus one month |
| Excel.GuardarDatosAnuales | src/model/informe/Excel.java:26-28 | the sheet "Último Año" from today minus one year |
| Excel.SheetShape | src/model/informe/Excel.java:35-47 | row 0 is the header; rows 1..k, k the number of movements after the cutoff, hold their date text, concept and amount in input order |
| Excel.DateTextsAgree | src/model/informe/Excel.java:44 | the sheet and the CSV file write the same date text for years 1..9999, and different texts for year 0 |

## Left out

- JDBC and SQLite themselves: connections, statements, result sets and the SQL text. Inserts are treated as parameterised, so the injection through `'` in a concept is not modelled. Any `SQLException` is the `reachable` flag or a missing table.
- `double` arithmetic. Amounts are exact rationals, so the accumulated rounding error of the balance loops is not modelled. NaN and infinities are not modelled either. The amount CHECK is affected too; see `Dao.EscribirMovimiento` below.
- The locale of `String.format("%.2f")`. The model always writes `.` as the decimal point.
- Time zones and daylight saving time. Calendar instants are UTC midnights.
- The Julian calendar before 1582. The Gregorian calendar is proleptic.
- The `LocalDate` range limits (years beyond ±999999999).
- The `long` range of IDs: the counter does not overflow.
- The wall clock and `LocalDate.now()`. They are parameters: `World.nowSec` and the `today` argument of the report methods.
- `Double.parseDouble` and `LocalDate.parse` with `yyyy-M-d`. Their results are given in the add form, with `None` for an exception.
- The add dialog's "no type selected" branch. The two radio buttons are in one group with Ingreso preselected, so the branch is unreachable.
- Swing itself:
  - layout, painting and `scrollToPanel`;
  - the help arrow positions;
  - the shortcut table and images of help steps 5 and 6;
  - the message dialogs;
  - the delete button's `doClick` and its visibility on hover. Supr and a click on the button are the events `DeleteKey` and `ClickDelete`. The button is taken to be clickable on every panel outside help mode.
- The observer list. `notifyBalanceChange` with the view registered is modelled; `Controller.NotifyIrrelevant` shows that its effect is the same as no notification.
- Excel.GuardarArchivo: the sheet is named `titulo` for every title. Apache POI, which is not part of this model, truncates a sheet name longer than 31 characters. It rejects with `IllegalArgumentException` an empty name, one containing `/ \ ? * [ ] :`, and one that starts or ends with `'`. The two callers pass "Último Mes" and "Último Año", which are valid names.
- File writing. The CSV report is the text it would write, and the Excel report is the sheet as a sequence of rows; the POI workbook serialisation is not modelled.
- Unrelated parts of the repository:
  - `src/model/informe/PDF.java`;
  - `src/model/informe/Informe.java` (a file chooser);
  - `src/Main.java`;
  - the configuration classes.
- Dao.EscribirMovimiento: the amount CHECK is evaluated on exact amounts. SQLite computes `CANTIDAD * 100` in binary floating point, so some whole-cent amounts fail it: for 0.29 the product is 28.999999999999996, `CAST` gives 28, and the insert returns false. The same holds for 0.57, 1.15 and 2.01. The model accepts these amounts.
- Dao.TwoDecimalsIsCents: the characterisation holds for exact amounts only. On the `double` the program stores, the check rejects some whole numbers of hundredths, such as 0.29.
- Dao.ObtenerMovimientoPorId: the result's date is stated through its midnight instant. The date itself is `DecodeFecha` of the stored instant; `Dao.FechaRoundTrip` and `Dates.CalendarFieldsContain` relate the two. The source also reads the columns without calling `next()` on the result set (`src/model/MovimientoDAO.java:103-106`), so the outcome depends on the JDBC driver. The model assumes a driver that reads the first row when the ID is stored and throws `SQLException` when it is not, so the result is null exactly for an absent ID. A driver that returns null, 0.0 and 0 for a missing row would instead give a record `(id, null, 0.0, 1970-01-01)`, and the delete path would push it onto the undo stack.
- Dao.LeerMovimientos: a failure is all or nothing. In the source, an `SQLException` thrown in the middle of the loop keeps the rows read before it. The model's single `reachable` flag covers only failures before the first row, and gives an empty array.
- Csv.CsvShape: the line count needs concepts without a newline. The source writes concepts verbatim, so a concept containing a newline adds lines.

=== FILE: balance.dfy ===
/**
 The balance the controller shows: the running sum of the amounts of the
 movements read, in read order, as the loops in loadData and
 calculateTotalBalance compute it; and its reference, the sum of CANTIDAD
 over a set of rows of the table, which does not depend on any order.
 */
module Balance {
  import opened Util
  import opened Movimientos
  import opened Dao

  /** ((0 + a0) + a1) + ... : the loop's left-to-right accumulation. */
  function Sum(ms: seq<Movimiento>): real
  {
    if ms == [] then 0.0 else Sum(ms[..|ms| - 1]) + ms[|ms| - 1].cantidad
  }

  /** The sum of CANTIDAD over the rows with ids in `s`. */
  function SumRows(rows: map<int, Row>, s: set<int>): real
    requires s <= rows.Keys
    decreases |s|
  {
    if s == {} then 0.0
    else
      var m := MinId(s);
      rows[m].cantidad + SumRows(rows, s - {m})
  }

  /** Any member of the set can be taken out first. */
  lemma {:induction false} SumRowsRemove(rows: map<int, Row>, s: set<int>, x: int)
    requires s <= rows.Keys && x in s
    ensures SumRows(rows, s) == rows[x].cantidad + SumRows(rows, s - {x})
    decreases |s|
  {
    var m := MinId(s);
    if x != m {
      SumRowsRemove(rows, s - {m}, x);
      var t := s - {x};
      assert m in t;
      assert MinId(t) == m by {
        var mt := MinId(t);
        assert mt in s;
        assert m <= mt && mt <= m;
      }
      assert t - {m} == s - {m} - {x};
    }
  }

  /** The set of ids of a sequence of records. */
  function IdSet(ms: seq<Movimiento>): (r: set<int>)
    ensures forall i :: 0 <= i < |ms| ==> ms[i].id in r
    ensures forall id :: id in r ==> exists i :: 0 <= i < |ms| && ms[i].id == id
  {
    set i | 0 <= i < |ms| :: ms[i].id
  }

  predicate DistinctIds(ms: seq<Movimiento>)
  {
    forall i, j :: 0 <= i < j < |ms| ==> ms[i].id != ms[j].id
  }

  /** Records that carry their row's amount and are read at most once each
      sum, in any order, to the sum over their rows. */
  lemma {:induction false} SumIsSumRows(ms: seq<Movimiento>, rows: map<int, Row>)
    requires forall i :: 0 <= i < |ms| ==> ms[i].id in rows && ms[i].cantidad == rows[ms[i].id].cantidad
    requires DistinctIds(ms)
    ensures IdSet(ms) <= rows.Keys
    ensures Sum(ms) == SumRows(rows, IdSet(ms))
    decreases |ms|
  {
    if ms != [] {
      var n := |ms|;
      var init := ms[..n - 1];
      var x := ms[n - 1].id;
      SumIsSumRows(init, rows);
      assert IdSet(init) == IdSet(ms) - {x} by {
        forall id | id in IdSet(ms) - {x} ensures id in IdSet(init) {
          var i :| 0 <= i < n && ms[i].id == id;
          assert i < n - 1;
          assert init[i] == ms[i];
        }
      }
      SumRowsRemove(rows, IdSet(ms), x);
    } else {
      assert IdSet(ms) == {};
    }
  }

  /** The rows a query with lower bound `since` selects. */
  function Passing(rows: map<int, Row>, since: Option<int>): (s: set<int>)
    ensures s <= rows.Keys
  {
    set id | id in rows && Passes(rows[id], since)
  }

  lemma IdSetIsPassing(ms: seq<Movimiento>, rows: map<int, Row>, since: Option<int>)
    requires forall i :: 0 <= i < |ms| ==> ms[i].id in rows && Passes(rows[ms[i].id], since)
    requires forall id :: id in rows && Passes(rows[id], since) ==> id in Ids(ms)
    ensures IdSet(ms) == Passing(rows, since)
  {
    forall id | id in Passing(rows, since) ensures id in IdSet(ms) {
      var i :| 0 <= i < |Ids(ms)| && Ids(ms)[i] == id;
      assert ms[i].id == id;
    }
  }

  /** The sum of the movements a successful read returns is the sum of
      CANTIDAD over the rows the WHERE clause selects; a failed read sums
      to 0. */
  lemma ReadSum(db: Db, q: Query, reachable: bool)
    ensures reachable && db.hasTable ==>
              Sum(LeerMovimientos(db, q, reachable)) == SumRows(db.rows, Passing(db.rows, q.since))
    ensures !(reachable && db.hasTable) ==> Sum(LeerMovimientos(db, q, reachable)) == 0.0
  {
    var ms := LeerMovimientos(db, q, reachable);
    if reachable && db.hasTable {
      LeerContents(db, q, reachable);
      forall i | 0 <= i < |ms| ensures ms[i].cantidad == db.rows[ms[i].id].cantidad {
        assert ms[i] == ToMovimiento(ms[i].id, db.rows[ms[i].id]);
      }
      SumIsSumRows(ms, db.rows);
      IdSetIsPassing(ms, db.rows, q.since);
    }
  }

  /** The accumulation loop of loadData and calculateTotalBalance. */
  method AddAmounts(ms: seq<Movimiento>) returns (total: real)
    ensures total == Sum(ms)
  {
    total := 0.0;
    var i := 0;
    while i < |ms|
      invariant 0 <= i <= |ms|
      invariant total == Sum(ms[..i])
    {
      assert ms[..i + 1][..i] == ms[..i];
      total := total + ms[i].cantidad;
      i := i + 1;
    }
    assert ms[..|ms|] == ms;
  }

  /** Without a lower bound every row is selected. */
  lemma PassingAll(rows: map<int, Row>)
    ensures Passing(rows, None) == rows.Keys
  {
    assert forall id :: id in rows.Keys ==> id in Passing(rows, None);
  }

  /** calculateTotalBalance: SELECT * FROM MOVIMIENTO and the loop adding
      each amount; the result is the sum over every row of the table, and 0
      when the read fails. */
  method CalculateTotalBalance(db: Db, reachable: bool) returns (total: real)
    ensures reachable && db.hasTable ==> total == SumRows(db.rows, db.rows.Keys)
    ensures !(reachable && db.hasTable) ==> total == 0.0
  {
    var ms := LeerMovimientos(db, SELECT_ALL, reachable);
    total := AddAmounts(ms);
    ReadSum(db, SELECT_ALL, reachable);
    PassingAll(db.rows);
  }

  /** Replacing one row by another with the same amount under a new id keeps
      the sum over all rows. */
  lemma SumRowsMove(rows: map<int, Row>, old_id: int, new_id: int, row: Row)
    requires old_id in rows && new_id !in rows && row.cantidad == rows[old_id].cantidad
    ensures var moved := (rows - {old_id})[new_id := row];
      SumRows(moved, moved.Keys) == SumRows(rows, rows.Keys)
  {
    var moved := (rows - {old_id})[new_id := row];
    var rest := rows.Keys - {old_id};
    SumRowsRemove(rows, rows.Keys, old_id);
    SumRowsRemove(moved, moved.Keys, new_id);
    assert moved.Keys - {new_id} == rest;
    SumRowsSame(rows, moved, rest);
  }

  /** The sum only looks at the rows it is asked about. */
  lemma {:induction false} SumRowsSame(a: map<int, Row>, b: map<int, Row>, s: set<int>)
    requires s <= a.Keys && s <= b.Keys
    requires forall id :: id in s ==> a[id].cantidad == b[id].cantidad
    ensures SumRows(a, s) == SumRows(b, s)
    decreases |s|
  {
    if s != {} {
      SumRowsSame(a, b, s - {MinId(s)});
    }
  }
}

=== FILE: controller.dfy ===
/**
 controller.MovimientoController: the session state (current filter, help
 mode and step, the stack of deleted movements) together with the database
 and the view it drives, and every event handler as a function from one
 session to the next.

 The outside world of one event is a `World`: the clock as SQLite's
 strftime('%s', 'now') reads it, and whether each DAO call of the event
 reaches the database. Dialog answers are fields of the event itself.
 */
module Controller {
  import opened Util
  import opened Text
  import opened Dates
  import opened Movimientos
  import opened Dao
  import opened View
  import opened Balance

  const TOTAL := "Total"
  const MES := "Mes"
  const ANIO := "Año"
  const SECONDS_PER_DAY := 86400

  datatype App = App(
    db: Db,
    filter: string,
    inHelpMode: bool,
    helpStep: int,
    deleted: seq<Movimiento>,   // the undo stack; its top is the last element
    view: View)

  /** The clock and the fate of each database call during one event. */
  datatype World = World(nowSec: int, lookupOk: bool, writeOk: bool, readOk: bool)

  // ---------------------------------------------------------------------
  // Filters and the visible set.

  predicate KnownFilter(f: string)
  {
    f == TOTAL || f == MES || f == ANIO
  }

  /** The SELECT loadData issues for a filter: a lower bound 30 or 365 days
      before now for Mes and Año, none otherwise; always newest first. */
  function QueryFor(filter: string, nowSec: int): (q: Query)
    ensures q.newestFirst
    ensures q.since.Some? <==> filter == MES || filter == ANIO
  {
    var days := if filter == MES then 30 else 365;
    Query(if filter == MES || filter == ANIO
          then Some((nowSec - days * SECONDS_PER_DAY) * 1000) else None, true)
  }

  /** The movements a filter shows. */
  function Visible(db: Db, filter: string, w: World): seq<Movimiento>
  {
    LeerMovimientos(db, QueryFor(filter, w.nowSec), w.readOk)
  }

  /** The visible set under each filter, as sets of rows: Total shows every
      row, Año those from 365 days back, Mes those from 30 days back, so each
      window contains the next. */
  lemma FilterWindows(rows: map<int, Row>, nowSec: int)
    ensures Passing(rows, QueryFor(TOTAL, nowSec).since) == rows.Keys
    ensures forall id :: id in Passing(rows, QueryFor(MES, nowSec).since) <==>
              id in rows && rows[id].fecha >= (nowSec - 30 * SECONDS_PER_DAY) * 1000
    ensures forall id :: id in Passing(rows, QueryFor(ANIO, nowSec).since) <==>
              id in rows && rows[id].fecha >= (nowSec - 365 * SECONDS_PER_DAY) * 1000
    ensures Passing(rows, QueryFor(MES, nowSec).since) <= Passing(rows, QueryFor(ANIO, nowSec).since)
  {
    PassingAll(rows);
  }

  /** cycleFilter's switch: Total, Mes, Año, back to Total; anything else
      goes to Mes. */
  function NextFilter(f: string): (r: string)
    ensures KnownFilter(r) && r != f
  {
    if f == TOTAL then MES
    else if f == MES then ANIO
    else if f == ANIO then TOTAL
    else MES
  }

  /** Three steps of the cycle come back to a known filter, and no fewer do. */
  lemma FilterCyclePeriod(f: string)
    requires KnownFilter(f)
    ensures NextFilter(NextFilter(NextFilter(f))) == f
    ensures NextFilter(NextFilter(f)) != f
  {
  }

  /** The label that shows a filter as selected. */
  function LabelFor(f: string): (l: FilterLabel)
    ensures KnownFilter(f) ==> Name(l) == (if f == MES then MES_TEXT else if f == ANIO then ANIO_TEXT else TOTAL_TEXT)
  {
    if f == MES then MesLabel else if f == ANIO then AnioLabel else TotalLabel
  }

  /** The filter a label click selects. */
  function FilterFor(l: FilterLabel): (f: string)
    ensures KnownFilter(f) && LabelFor(f) == l
  {
    match l
    case MesLabel => MES
    case AnioLabel => ANIO
    case TotalLabel => TOTAL
  }

  // ---------------------------------------------------------------------
  // loadData.

  /** The view updates of loadData for the movements read: the observers'
      onBalanceChange (when the view is registered), setBalance, the banner
      colour chosen by the controller, and setMovements. */
  function Refresh(v: View, ms: seq<Movimiento>, notify: bool): View
  {
    var total := Sum(ms);
    var v1 := if notify then OnBalanceChange(v, total) else v;
    var v2 := SetBalance(v1, total);
    var v3 := UpdateBannerAndFiltersColor(v2, if total < 0.0 then RED else BLUE);
    SetMovements(v3, ms)
  }

  /** Whether or not the view is registered as a balance observer, loadData
      leaves it in the same state: the two colour thresholds agree. */
  lemma NotifyIrrelevant(v: View, ms: seq<Movimiento>)
    ensures Refresh(v, ms, true) == Refresh(v, ms, false)
  {
  }

  /** loadData: nothing in help mode; otherwise read the movements of the
      current filter and show them, their sum and its colour. */
  function LoadData(app: App, w: World): (r: App)
    ensures app.inHelpMode ==> r == app
    ensures r.(view := app.view) == app
    ensures !app.inHelpMode ==>
              var ms := Visible(app.db, app.filter, w);
              && |r.view.panels| == |ms|
              && (forall i :: 0 <= i < |ms| ==> r.view.panels[i] == PanelOf(ms[i]))
              && r.view.selected == -1
              && r.view.balanceText == Fixed2(Sum(ms))
              && (r.view.colour == RED <==> Sum(ms) < 0.0)
    ensures r.view.labels == app.view.labels
    ensures r.view.inHelpMode == app.view.inHelpMode && r.view.helpStep == app.view.helpStep
    ensures SelectionInRange(app.view) ==> SelectionInRange(r.view)
  {
    if app.inHelpMode then app
    else app.(view := Refresh(app.view, Visible(app.db, app.filter, w), true))
  }

  /** The balance loadData shows is the sum of CANTIDAD over exactly the rows
      the filter's window selects (0 when the read fails), whatever order
      they are read in. */
  lemma ShownBalance(app: App, w: World)
    requires !app.inHelpMode && w.readOk && app.db.hasTable
    ensures LoadData(app, w).view.balanceText
              == Fixed2(SumRows(app.db.rows, Passing(app.db.rows, QueryFor(app.filter, w.nowSec).since)))
  {
    ReadSum(app.db, QueryFor(app.filter, w.nowSec), w.readOk);
  }

  /** The movements loadData shows come newest first. */
  lemma ShownNewestFirst(app: App, w: World)
    ensures var ms := Visible(app.db, app.filter, w);
      forall i, j :: 0 <= i < j < |ms| ==> !IsAfter(ms[j].fecha, ms[i].fecha)
  {
    NewestFirstDates(app.db, QueryFor(app.filter, w.nowSec), w.readOk);
  }

  // ---------------------------------------------------------------------
  // Filter events.

  /** cycleFilter (Tab): outside help mode, move to the next filter,
      highlight its label and reload. */
  function CycleFilter(app: App, w: World): (r: App)
    ensures app.inHelpMode ==> r == app
    ensures !app.inHelpMode ==> r.filter == NextFilter(app.filter)
                                && r.view.labels == Highlight(app.view.labels, LabelFor(r.filter))
    ensures r.db == app.db && r.deleted == app.deleted
    ensures r.inHelpMode == app.inHelpMode && r.helpStep == app.helpStep
  {
    if app.inHelpMode then app
    else
      var f := NextFilter(app.filter);
      var v := app.view.(labels := Highlight(app.view.labels, LabelFor(f)));
      LoadData(app.(filter := f, view := v), w)
  }

  /** A click on a filter label: outside help mode, select that filter,
      reload, then highlight the label. */
  function SelectFilter(app: App, l: FilterLabel, w: World): (r: App)
    ensures app.inHelpMode ==> r == app
    ensures !app.inHelpMode ==> r.filter == FilterFor(l)
                                && r.view.labels == Highlight(app.view.labels, l)
    ensures r.db == app.db && r.deleted == app.deleted
    ensures r.inHelpMode == app.inHelpMode && r.helpStep == app.helpStep
  {
    if app.inHelpMode then app
    else
      var a := LoadData(app.(filter := FilterFor(l)), w);
      a.(view := a.view.(labels := Highlight(a.view.labels, l)))
  }

  // ---------------------------------------------------------------------
  // Delete and undo.

  /** deleteMovimiento: look the movement up, delete it, and push the
      snapshot only when both worked; then reload. */
  function DeleteMovimiento(app: App, id: int, w: World): (r: App)
    ensures var found := ObtenerMovimientoPorId(app.db, id, w.lookupOk);
      if found.Some? && BorrarMovimiento(app.db, id, w.writeOk).1 then
        && r.deleted == app.deleted + [found.value]
        && r.db == BorrarMovimiento(app.db, id, w.writeOk).0
      else r == app
    ensures r.filter == app.filter && r.inHelpMode == app.inHelpMode && r.helpStep == app.helpStep
  {
    var found := ObtenerMovimientoPorId(app.db, id, w.lookupOk);
    if found.None? then app
    else
      var (db, ok) := BorrarMovimiento(app.db, id, w.writeOk);
      if ok then LoadData(app.(db := db, deleted := app.deleted + [found.value]), w)
      else app
  }

  /** undoDeleteMovimiento: pop the last snapshot, then write it back; the
      snapshot is gone even when the write fails. */
  function UndoDeleteMovimiento(app: App, w: World): (r: App)
    ensures app.deleted == [] ==> r == app
    ensures app.deleted != [] ==>
              var m := app.deleted[|app.deleted| - 1];
              && r.deleted == app.deleted[..|app.deleted| - 1]
              && r.db == EscribirMovimiento(app.db, m, w.writeOk).0
    ensures r.filter == app.filter && r.inHelpMode == app.inHelpMode && r.helpStep == app.helpStep
  {
    if app.deleted == [] then app
    else
      var m := app.deleted[|app.deleted| - 1];
      var a := app.(deleted := app.deleted[..|app.deleted| - 1]);
      var (db, ok) := EscribirMovimiento(app.db, m, w.writeOk);
      if ok then LoadData(a.(db := db), w) else a
  }

  /** The stack discipline: a successful delete pushes exactly one snapshot
      and an undo pops exactly that one. */
  lemma UndoPopsLastDelete(app: App, id: int, w1: World, w2: World)
    requires ObtenerMovimientoPorId(app.db, id, w1.lookupOk).Some?
    requires BorrarMovimiento(app.db, id, w1.writeOk).1
    ensures UndoDeleteMovimiento(DeleteMovimiento(app, id, w1), w2).deleted == app.deleted
  {
    var d := DeleteMovimiento(app, id, w1);
    assert d.deleted[..|d.deleted| - 1] == app.deleted;
  }

  /** The snapshot a lookup takes of a stored row is accepted again by the
      table, and writes back the same concepto, cantidad and day. */
  lemma SnapshotValid(db: Db, id: int)
    requires WellFormed(db) && db.hasTable && id in db.rows
    ensures var m := ObtenerMovimientoPorId(db, id, true).value;
      var row := db.rows[id];
      && ValidConcepto(m.concepto) && ValidCantidad(m.cantidad) && m.fecha.year >= EPOCH_YEAR
      && RowOf(m) == Row(row.concepto, row.cantidad, row.fecha - row.fecha % MILLIS_PER_DAY)
  {
    var m := ObtenerMovimientoPorId(db, id, true).value;
    var row := db.rows[id];
    assert ValidRow(row);
    assert m.FechaToDate() >= 0;
  }

  /** In the store: deleting a row and writing its snapshot back moves the
      row, with its date at midnight, to the next id, and keeps the sum. */
  lemma StoreRoundTrip(db: Db, id: int)
    requires WellFormed(db) && db.hasTable && id in db.rows
    ensures var m := ObtenerMovimientoPorId(db, id, true).value;
      var e := EscribirMovimiento(BorrarMovimiento(db, id, true).0, m, true);
      && e.1 && e.0.lastId == db.lastId + 1
      && e.0.rows == (db.rows - {id})[e.0.lastId := RowOf(m)]
      && SumRows(e.0.rows, e.0.rows.Keys) == SumRows(db.rows, db.rows.Keys)
  {
    var m := ObtenerMovimientoPorId(db, id, true).value;
    SnapshotValid(db, id);
    var db1 := BorrarMovimiento(db, id, true).0;
    var e := EscribirMovimiento(db1, m, true);
    assert db.lastId + 1 !in db.rows;
    SumRowsMove(db.rows, id, e.0.lastId, RowOf(m));
  }

  /** Deleting a movement and undoing the delete, with every database call
      working, restores a row with the same concepto and cantidad and the
      same date (as midnight) under a new id, and keeps the total balance. */
  lemma DeleteUndoRoundTrip(app: App, id: int, w: World)
    requires WellFormed(app.db) && app.db.hasTable && id in app.db.rows
    requires w.lookupOk && w.writeOk
    ensures var r := UndoDeleteMovimiento(DeleteMovimiento(app, id, w), w);
      var row := app.db.rows[id];
      && r.deleted == app.deleted
      && r.db.lastId == app.db.lastId + 1
      && r.db.rows == (app.db.rows - {id})[r.db.lastId := Row(row.concepto, row.cantidad, row.fecha - row.fecha % MILLIS_PER_DAY)]
      && SumRows(r.db.rows, r.db.rows.Keys) == SumRows(app.db.rows, app.db.rows.Keys)
  {
    var m := ObtenerMovimientoPorId(app.db, id, true).value;
    var d := DeleteMovimiento(app, id, w);
    var r := UndoDeleteMovimiento(d, w);
    assert d.db == BorrarMovimiento(app.db, id, true).0 && d.deleted == app.deleted + [m];
    RoundTripParts(app, id, m, d, r);
  }

  /** The round trip, stated over the two intermediate states. */
  lemma RoundTripParts(app: App, id: int, m: Movimiento, d: App, r: App)
    requires WellFormed(app.db) && app.db.hasTable && id in app.db.rows
    requires m == ObtenerMovimientoPorId(app.db, id, true).value
    requires d.db == BorrarMovimiento(app.db, id, true).0 && d.deleted == app.deleted + [m]
    requires r.deleted == d.deleted[..|d.deleted| - 1]
    requires r.db == EscribirMovimiento(d.db, d.deleted[|d.deleted| - 1], true).0
    ensures var row := app.db.rows[id];
      && r.deleted == app.deleted
      && r.db.lastId == app.db.lastId + 1
      && r.db.rows == (app.db.rows - {id})[r.db.lastId := Row(row.concepto, row.cantidad, row.fecha - row.fecha % MILLIS_PER_DAY)]
      && SumRows(r.db.rows, r.db.rows.Keys) == SumRows(app.db.rows, app.db.rows.Keys)
  {
    assert d.deleted[|d.deleted| - 1] == m;
    assert d.deleted[..|d.deleted| - 1] == app.deleted;
    var e := EscribirMovimiento(BorrarMovimiento(app.db, id, true).0, m, true);
    assert r.db == e.0;
    SnapshotValid(app.db, id);
    StoreRoundTrip(app.db, id);
  }

  // ---------------------------------------------------------------------
  // Adding a movement.

  /** The answers of the "new movement" dialogs: whether OK was pressed, the
      raw field texts, what Double.parseDouble and LocalDate.parse make of
      the trimmed texts (None for an exception), the Gasto/Ingreso choice,
      and the answer to the confirmation. */
  datatype AddForm = AddForm(
    accepted: bool,
    conceptoText: string,
    cantidadText: string,
    parsed: Option<real>,
    gasto: bool,
    fecha: Option<Date>,
    confirmed: bool)

  /** Gasto makes the amount -|x|, Ingreso |x|. */
  function SignedAmount(x: real, gasto: bool): (r: real)
    ensures Abs(r) == Abs(x)
    ensures gasto ==> r <= 0.0
    ensures !gasto ==> r >= 0.0
  {
    if gasto then -Abs(x) else Abs(x)
  }

  /** The movement addMovimiento writes, if the form gets that far: id 0,
      the trimmed concept, the signed amount and the parsed date. */
  function FormMovimiento(f: AddForm): (r: Option<Movimiento>)
    ensures r.Some? <==> f.accepted && Trim(f.cantidadText) != "" && f.parsed.Some?
                         && f.fecha.Some? && f.confirmed
    ensures r.Some? ==> r.value.id == 0 && r.value.concepto == Trim(f.conceptoText)
                        && r.value.cantidad == SignedAmount(f.parsed.value, f.gasto)
                        && r.value.fecha == f.fecha.value
  {
    if !f.accepted then None
    else if Trim(f.cantidadText) == "" then None
    else if f.parsed.None? then None
    else if f.fecha.None? then None
    else if !f.confirmed then None
    else Some(Movimiento(0, Trim(f.conceptoText), SignedAmount(f.parsed.value, f.gasto), f.fecha.value))
  }

  /** addMovimiento: write the form's movement and reload on success; every
      earlier exit, and a failed write, leaves the session as it was. */
  function AddMovimiento(app: App, f: AddForm, w: World): (r: App)
    ensures FormMovimiento(f).None? ==> r == app
    ensures FormMovimiento(f).Some? ==> r.db == EscribirMovimiento(app.db, FormMovimiento(f).value, w.writeOk).0
    ensures r.deleted == app.deleted && r.filter == app.filter
    ensures r.inHelpMode == app.inHelpMode && r.helpStep == app.helpStep
  {
    match FormMovimiento(f)
    case None => app
    case Some(m) =>
      var (db, ok) := EscribirMovimiento(app.db, m, w.writeOk);
      if ok then LoadData(app.(db := db), w) else app
  }

  /** A blank amount never reaches the database. */
  lemma BlankAmountRejected(app: App, f: AddForm, w: World)
    requires Trim(f.cantidadText) == ""
    ensures AddMovimiento(app, f, w) == app
  {
  }

  /** When an add changes the store, it adds one row under a fresh id whose
      amount has the chosen sign and the typed magnitude. */
  lemma AddedRow(app: App, f: AddForm, w: World)
    requires WellFormed(app.db)
    ensures var r := AddMovimiento(app, f, w);
      r.db != app.db ==>
        && f.parsed.Some? && r.db.lastId !in app.db.rows
        && r.db.rows == app.db.rows[r.db.lastId := r.db.rows[r.db.lastId]]
        && r.db.rows[r.db.lastId].concepto == Trim(f.conceptoText)
        && Abs(r.db.rows[r.db.lastId].cantidad) == Abs(f.parsed.value)
        && (f.gasto <==> r.db.rows[r.db.lastId].cantidad < 0.0)
  {
    var r := AddMovimiento(app, f, w);
    if r.db != app.db {
      var m := FormMovimiento(f).value;
      assert ValidCantidad(m.cantidad);
    }
  }

  // ---------------------------------------------------------------------
  // Help mode.

  const HELP_1 := "Muestra tu balance correspondiente a lo ingresado menos lo gastado."
  const HELP_2 := "Muestra los gastos/ingresos en los últimos 30 días y el balance correspondiente."
  const HELP_3 := "Muestra los gastos/ingresos en los últimos 365 días y el balance correspondiente."
  const HELP_4 := "Permite añadir un ingreso/gasto con su respectivo concepto y fecha."
  const HELP_5 := "Atajos de teclado:"
  const HELP_6 := "Menu principal: Permite gestionar la aplicación y el guardado de datos."
  const LAST_HELP_STEP := 6

  /** The help text of steps 1 to 6. */
  function HelpText(step: int): string
    requires 1 <= step <= LAST_HELP_STEP
  {
    match step
    case 1 => HELP_1
    case 2 => HELP_2
    case 3 => HELP_3
    case 4 => HELP_4
    case 5 => HELP_5
    case _ => HELP_6
  }

  /** The help flag and step, as the controller and the view hold them. */
  predicate HelpConsistent(app: App)
  {
    && app.view.inHelpMode == app.inHelpMode
    && app.view.helpStep == app.helpStep
    && (app.inHelpMode ==> 1 <= app.helpStep <= LAST_HELP_STEP)
    && (!app.inHelpMode ==> app.helpStep == 0)
  }

  /** startHelp: step 1, the view in help mode, the first text split in two. */
  function StartHelp(app: App): (r: App)
    ensures r.inHelpMode && r.helpStep == 1 && HelpConsistent(r)
    ensures r.view.helpText == SplitTextInHalf(HELP_1)
    ensures r.db == app.db && r.filter == app.filter && r.deleted == app.deleted
  {
    var v := EnterHelpMode(SetHelpStep(app.view, 1));
    var t := SplitTextInHalf(HELP_1);
    app.(inHelpMode := true, helpStep := 1, view := UpdateHelpText(v, t.0, t.1))
  }

  /** endHelp: back to step 0 outside help mode, then reload. */
  function EndHelp(app: App, w: World): (r: App)
    ensures !r.inHelpMode && r.helpStep == 0 && !r.view.inHelpMode && r.view.helpStep == 0
    ensures r.db == app.db && r.filter == app.filter && r.deleted == app.deleted
  {
    var a := app.(inHelpMode := false, helpStep := 0, view := ExitHelpMode(SetHelpStep(app.view, 0)));
    LoadData(a, w)
  }

  /** updateHelpText with the two halves of a step's text. */
  function ShowHelpText(app: App, step: int): (r: App)
    requires 1 <= step <= LAST_HELP_STEP
    ensures r.view.helpText == SplitTextInHalf(HelpText(step))
    ensures r.(view := app.view) == app && r.view.(helpText := app.view.helpText) == app.view
  {
    var t := SplitTextInHalf(HelpText(step));
    app.(view := UpdateHelpText(app.view, t.0, t.1))
  }

  /** nextHelpStep: one step further; steps 2 to 6 show their text, step 7
      ends help mode. */
  function NextHelpStep(app: App, w: World): (r: App)
    ensures app.helpStep + 1 == LAST_HELP_STEP + 1 ==> !r.inHelpMode && r.helpStep == 0
    ensures app.helpStep + 1 != LAST_HELP_STEP + 1 ==> r.inHelpMode == app.inHelpMode && r.helpStep == app.helpStep + 1
    ensures 2 <= app.helpStep + 1 <= LAST_HELP_STEP ==> r.view.helpText == SplitTextInHalf(HelpText(app.helpStep + 1))
    ensures r.db == app.db && r.filter == app.filter && r.deleted == app.deleted
    ensures HelpConsistent(app) && app.inHelpMode ==> HelpConsistent(r)
  {
    var a := app.(helpStep := app.helpStep + 1, view := SetHelpStep(app.view, app.helpStep + 1));
    if 2 <= app.helpStep + 1 <= LAST_HELP_STEP then ShowHelpText(a, app.helpStep + 1)
    else if app.helpStep + 1 == LAST_HELP_STEP + 1 then EndHelp(a, w)
    else a
  }

  /** triggerHelp: start help only when it is not already on. */
  function TriggerHelp(app: App): (r: App)
    ensures app.inHelpMode ==> r == app
    ensures !app.inHelpMode ==> r == StartHelp(app)
  {
    if app.inHelpMode then app else StartHelp(app)
  }

  function AdvanceHelp(app: App, w: World, k: nat): App
  {
    if k == 0 then app else NextHelpStep(AdvanceHelp(app, w, k - 1), w)
  }

  /** The guided tour: after starting help, the first five advances stay in
      help mode on steps 2 to 6, and the sixth leaves it at step 0. */
  lemma HelpTour(app: App, w: World, k: nat)
    requires 1 <= k <= LAST_HELP_STEP
    ensures var r := AdvanceHelp(StartHelp(app), w, k);
      if k < LAST_HELP_STEP then r.inHelpMode && r.helpStep == k + 1 && HelpConsistent(r)
      else !r.inHelpMode && r.helpStep == 0
    ensures AdvanceHelp(StartHelp(app), w, k).db == app.db
  {
    var a := StartHelp(app);
    HelpRun(a, w, k);
  }

  /** The tour from any state on help step 1. */
  lemma {:induction false} HelpRun(a: App, w: World, k: nat)
    requires a.inHelpMode && a.helpStep == 1 && HelpConsistent(a)
    requires 1 <= k <= LAST_HELP_STEP
    ensures var r := AdvanceHelp(a, w, k);
      if k < LAST_HELP_STEP then r.inHelpMode && r.helpStep == k + 1 && HelpConsistent(r)
      else !r.inHelpMode && r.helpStep == 0
    ensures AdvanceHelp(a, w, k).db == a.db
  {
    if k > 1 {
      HelpRun(a, w, k - 1);
      assert AdvanceHelp(a, w, k) == NextHelpStep(AdvanceHelp(a, w, k - 1), w);
    } else {
      assert AdvanceHelp(a, w, k) == NextHelpStep(a, w);
    }
  }

  /** splitTextInHalf's choice of space: the last one at or before the
      middle, or failing that the first one after it. */
  predicate ChosenSpace(text: string, sp: int)
  {
    var middle := |text| / 2;
    && 0 <= sp < |text| && text[sp] == ' '
    && (forall k :: sp < k <= middle && k < |text| ==> text[k] != ' ')
    && (sp > middle ==> forall k :: 0 <= k < sp ==> text[k] != ' ')
  }

  /** At most one space is the chosen one. */
  lemma ChosenSpaceUnique(text: string, a: int, b: int)
    requires ChosenSpace(text, a) && ChosenSpace(text, b)
    ensures a == b
  {
  }

  /** splitTextInHalf: the text and "" when it has no space; otherwise the
      trimmed parts before and from the chosen space. */
  function SplitTextInHalf(text: string): (r: (string, string))
    ensures (forall k :: 0 <= k < |text| ==> text[k] != ' ') ==> r == (text, "")
    ensures (exists k :: 0 <= k < |text| && text[k] == ' ') ==>
              exists sp :: ChosenSpace(text, sp) && r == (Trim(text[..sp]), Trim(text[sp..]))
  {
    var middle := |text| / 2;
    var last := LastIndexOf(text, ' ', middle);
    var sp := if last == -1 then IndexOf(text, ' ', middle) else last;
    if sp == -1 then (text, "")
    else
      assert ChosenSpace(text, sp);
      (Trim(text[..sp]), Trim(text[sp..]))
  }

  /** Both halves come out trimmed. */
  lemma SplitHalvesTrimmed(text: string)
    requires exists k :: 0 <= k < |text| && text[k] == ' '
    ensures var r := SplitTextInHalf(text); Trim(r.0) == r.0 && Trim(r.1) == r.1
  {
    var r := SplitTextInHalf(text);
    var sp :| ChosenSpace(text, sp) && r == (Trim(text[..sp]), Trim(text[sp..]));
    TrimIdempotent(text[..sp]);
    TrimIdempotent(text[sp..]);
  }

  // ---------------------------------------------------------------------
  // Events.

  datatype Event =
    | Tab                          // cycleFilter
    | ClickFilter(l: FilterLabel)  // a filter label
    | AddKey(form: AddForm)        // the add button or Ctrl+N
    | UndoKey                      // Ctrl+Z
    | HelpKey                      // F1
    | HelpButton                   // the help button
    | ContinueButton               // "Continuar..." in help mode
    | Up
    | Down
    | DeleteKey(confirmed: bool)   // Supr, then the confirmation dialog
    | ClickDelete(panel: int, confirmed: bool)  // a panel's "x" button, then the dialog

  /** One event, with the guards of the key bindings and listeners that
      deliver it. Tab, Ctrl+N, Ctrl+Z and F1 reach the controller's own
      actions, which replace the view's bindings of those keys; the help
      button is hidden while the view is in help mode. */
  function Step(app: App, e: Event, w: World): App
  {
    match e
    case Tab => CycleFilter(app, w)
    case ClickFilter(l) => SelectFilter(app, l, w)
    case AddKey(f) => if app.inHelpMode then app else AddMovimiento(app, f, w)
    case UndoKey => if app.inHelpMode then app else UndoDeleteMovimiento(app, w)
    case HelpKey => if app.inHelpMode then NextHelpStep(app, w) else TriggerHelp(app)
    case HelpButton => if app.view.inHelpMode then app else StartHelp(app)
    case ContinueButton => if app.view.inHelpMode then NextHelpStep(app, w) else app
    case Up => if app.view.inHelpMode then app else app.(view := MoveSelectionUp(app.view))
    case Down => if app.view.inHelpMode then app else app.(view := MoveSelectionDown(app.view))
    case DeleteKey(confirmed) => PressDelete(app, confirmed, w)
    case ClickDelete(i, confirmed) => ClickDeletePanel(app, i, confirmed, w)
  }

  /** Supr: the selected panel's movement, once confirmed; ignored in help
      mode and when nothing is selected. */
  function PressDelete(app: App, confirmed: bool, w: World): App
  {
    if app.view.inHelpMode then app
    else match DeleteTarget(app.view)
      case None => app
      case Some(id) => if confirmed then DeleteMovimiento(app, id, w) else app
  }

  /** A click on the delete button of panel `i`, once confirmed; the panels
      are hidden in help mode. */
  function ClickDeletePanel(app: App, i: int, confirmed: bool, w: World): App
  {
    if app.view.inHelpMode || !(0 <= i < |app.view.panels|) || !confirmed then app
    else DeleteMovimiento(app, app.view.panels[i].id, w)
  }

  /** Supr clicks the selected panel's delete button: the key and a click
      on that button do the same, and a confirmed click on any panel deletes
      that panel's movement whatever is selected. */
  lemma DeletePathsAgree(app: App, i: int, confirmed: bool, w: World)
    requires !app.view.inHelpMode && 0 <= i < |app.view.panels|
    ensures app.view.selected == i ==> PressDelete(app, confirmed, w) == ClickDeletePanel(app, i, confirmed, w)
    ensures confirmed ==> ClickDeletePanel(app, i, confirmed, w) == DeleteMovimiento(app, app.view.panels[i].id, w)
  {
    if app.view.selected == i {
      assert DeleteTarget(app.view) == Some(app.view.panels[i].id);
    }
  }

  /** While help mode is on, no event touches the store, the filter or the
      undo stack, and every event other than F1 and "Continuar..." is
      ignored altogether. */
  lemma HelpModeFreezes(app: App, e: Event, w: World)
    requires HelpConsistent(app) && app.inHelpMode
    ensures var r := Step(app, e, w);
      r.db == app.db && r.filter == app.filter && r.deleted == app.deleted
    ensures !e.HelpKey? && !e.ContinueButton? ==> Step(app, e, w) == app
  {
  }

  /** The session invariant: a well-formed table, a known filter whose label
      is the highlighted one, a selection inside the list, and help state
      that agrees between controller and view. */
  ghost predicate Inv(app: App)
  {
    && WellFormed(app.db)
    && KnownFilter(app.filter)
    && Shows(app.view.labels, LabelFor(app.filter))
    && SelectionInRange(app.view)
    && HelpConsistent(app)
  }

  /** The session after construction: filter Total, no help, empty stack,
      and the first loadData (no observer registered yet). */
  function Init(db: Db, w: World): (r: App)
    ensures r.filter == TOTAL && !r.inHelpMode && r.deleted == [] && r.db == db
    ensures var ms := Visible(db, TOTAL, w);
      && |r.view.panels| == |ms|
      && (forall i :: 0 <= i < |ms| ==> r.view.panels[i] == PanelOf(ms[i]))
      && r.view.selected == -1
      && r.view.balanceText == Fixed2(Sum(ms))
      && (r.view.colour == RED <==> Sum(ms) < 0.0)
      && r.view.labels == INITIAL_LABELS && !r.view.inHelpMode && r.helpStep == 0
  {
    var app := App(db, TOTAL, false, 0, [], INITIAL_VIEW);
    app.(view := Refresh(INITIAL_VIEW, Visible(db, TOTAL, w), false))
  }

  lemma InitInv(db: Db, w: World)
    requires WellFormed(db)
    ensures Inv(Init(db, w))
  {
    var r := Init(db, w);
    InitialLabelsShowTotal();
    assert LabelFor(r.filter) == TotalLabel;
    assert Shows(r.view.labels, LabelFor(r.filter));
    assert SelectionInRange(r.view) && HelpConsistent(r);
  }

  lemma LoadDataInv(app: App, w: World)
    requires Inv(app)
    ensures Inv(LoadData(app, w))
  {
  }

  lemma CycleFilterInv(app: App, w: World)
    requires Inv(app)
    ensures Inv(CycleFilter(app, w))
  {
    if !app.inHelpMode {
      var f := NextFilter(app.filter);
      HighlightShows(app.view.labels, LabelFor(app.filter), LabelFor(f));
      LoadDataInv(app.(filter := f, view := app.view.(labels := Highlight(app.view.labels, LabelFor(f)))), w);
    }
  }

  lemma SelectFilterInv(app: App, l: FilterLabel, w: World)
    requires Inv(app)
    ensures Inv(SelectFilter(app, l, w))
  {
    if !app.inHelpMode {
      var a := LoadData(app.(filter := FilterFor(l)), w);
      HighlightShows(app.view.labels, LabelFor(app.filter), l);
    }
  }

  lemma DeleteInv(app: App, id: int, w: World)
    requires Inv(app)
    ensures Inv(DeleteMovimiento(app, id, w))
  {
    var found := ObtenerMovimientoPorId(app.db, id, w.lookupOk);
    if found.Some? {
      var (db, ok) := BorrarMovimiento(app.db, id, w.writeOk);
      if ok {
        LoadDataInv(app.(db := db, deleted := app.deleted + [found.value]), w);
      }
    }
  }

  lemma UndoInv(app: App, w: World)
    requires Inv(app)
    ensures Inv(UndoDeleteMovimiento(app, w))
  {
    if app.deleted != [] {
      var m := app.deleted[|app.deleted| - 1];
      var a := app.(deleted := app.deleted[..|app.deleted| - 1]);
      var (db, ok) := EscribirMovimiento(app.db, m, w.writeOk);
      if ok {
        LoadDataInv(a.(db := db), w);
      }
    }
  }

  lemma AddInv(app: App, f: AddForm, w: World)
    requires Inv(app)
    ensures Inv(AddMovimiento(app, f, w))
  {
    match FormMovimiento(f)
    case None =>
    case Some(m) =>
      var (db, ok) := EscribirMovimiento(app.db, m, w.writeOk);
      if ok {
        LoadDataInv(app.(db := db), w);
      }
  }

  lemma HelpInv(app: App, w: World)
    requires Inv(app)
    ensures Inv(StartHelp(app))
    ensures app.inHelpMode ==> Inv(NextHelpStep(app, w))
  {
    if app.inHelpMode && app.helpStep + 1 == LAST_HELP_STEP + 1 {
      var step := app.helpStep + 1;
      var a := app.(helpStep := step, view := SetHelpStep(app.view, step));
      var b := a.(inHelpMode := false, helpStep := 0, view := ExitHelpMode(SetHelpStep(a.view, 0)));
      LoadDataInv(b, w);
    }
  }

  /** Every event keeps the session invariant. */
  lemma StepInv(app: App, e: Event, w: World)
    requires Inv(app)
    ensures Inv(Step(app, e, w))
  {
    match e
    case Tab => CycleFilterInv(app, w);
    case ClickFilter(l) => SelectFilterInv(app, l, w);
    case AddKey(f) => AddInv(app, f, w);
    case UndoKey => UndoInv(app, w);
    case HelpKey => HelpInv(app, w);
    case HelpButton => HelpInv(app, w);
    case ContinueButton => HelpInv(app, w);
    case Up =>
    case Down =>
    case DeleteKey(confirmed) =>
      match DeleteTarget(app.view) {
        case None =>
        case Some(id) => DeleteInv(app, id, w);
      }
    case ClickDelete(i, confirmed) =>
      if !app.view.inHelpMode && 0 <= i < |app.view.panels| && confirmed {
        DeleteInv(app, app.view.panels[i].id, w);
      }
  }
}

=== FILE: csv.dfy ===
/**
 model.informe.CSV: the text written to the file, a header line and one
 line per movement dated after the cutoff.
 */
module Csv {
  import opened Text
  import opened Dates
  import opened Movimientos
  import opened Informe

  const HEADER := "Fecha,Concepto,Cantidad\n"

  /** One report line: the date as yyyy-MM-dd, the concept, the amount with
      two decimals, then a newline. */
  function CsvRow(m: Movimiento): string
  {
    PatternText(m.fecha) + "," + m.concepto + "," + Fixed2(m.cantidad) + "\n"
  }

  /** The lines of a list of movements, one after the other. */
  function CsvRows(ms: seq<Movimiento>): string
  {
    if ms == [] then "" else CsvRow(ms[0]) + CsvRows(ms[1..])
  }

  lemma {:induction false} CsvRowsConcat(a: seq<Movimiento>, b: seq<Movimiento>)
    ensures CsvRows(a + b) == CsvRows(a) + CsvRows(b)
    decreases |a|
  {
    if a == [] {
      assert a + b == b;
    } else {
      assert (a + b)[1..] == a[1..] + b;
      CsvRowsConcat(a[1..], b);
    }
  }

  /** The whole file: the header, then the line of every selected movement. */
  function CsvText(ms: seq<Movimiento>, limite: LocalDate): string
  {
    HEADER + CsvRows(Selected(ms, limite))
  }

  /** One more movement adds its line exactly when it is dated after the
      cutoff. */
  lemma RowsStep(pre: seq<Movimiento>, m: Movimiento, limite: LocalDate)
    ensures CsvRows(Selected(pre + [m], limite))
            == CsvRows(Selected(pre, limite)) + (if IsAfter(m.fecha, limite) then CsvRow(m) else "")
  {
    SelectedConcat(pre, [m], limite);
    SelectedOne(m, limite);
    CsvRowsConcat(Selected(pre, limite), Selected([m], limite));
    assert CsvRows([m]) == CsvRow(m) + CsvRows([]);
  }

  /** The loop step of AppendRows. */
  lemma AppendStep(prefix: string, pre: seq<Movimiento>, m: Movimiento, limite: LocalDate, text: string)
    requires text == prefix + CsvRows(Selected(pre, limite))
    ensures (if IsAfter(m.fecha, limite) then text + CsvRow(m) else text)
            == prefix + CsvRows(Selected(pre + [m], limite))
  {
    var before := CsvRows(Selected(pre, limite));
    var extra := if IsAfter(m.fecha, limite) then CsvRow(m) else "";
    RowsStep(pre, m, limite);
    AppendAssoc(prefix, before, extra);
    if !IsAfter(m.fecha, limite) {
      assert text + extra == text;
    }
  }

  lemma AppendAssoc(a: string, b: string, c: string)
    ensures (a + b) + c == a + (b + c)
  {
  }

  /** The loop of guardarArchivo after the header: a line for each movement
      dated after `limite`, in input order. */
  method AppendRows(prefix: string, ms: seq<Movimiento>, limite: LocalDate) returns (text: string)
    ensures text == prefix + CsvRows(Selected(ms, limite))
  {
    text := prefix;
    ghost var done: seq<Movimiento> := [];
    var i := 0;
    while i < |ms|
      invariant 0 <= i <= |ms|
      invariant done == ms[..i]
      invariant text == prefix + CsvRows(Selected(done, limite))
    {
      AppendStep(prefix, done, ms[i], limite, text);
      if IsAfter(ms[i].fecha, limite) {
        text := text + CsvRow(ms[i]);
      }
      done := done + [ms[i]];
      i := i + 1;
    }
    assert ms[..|ms|] == ms;
  }

  /** guardarArchivo: the header line, then a line for each movement dated
      after `limite`. The title plays no part in the text. */
  method GuardarArchivo(ms: seq<Movimiento>, limite: LocalDate, titulo: string) returns (text: string)
    ensures text == CsvText(ms, limite)
  {
    text := AppendRows(HEADER, ms, limite);
  }

  /** guardarDatosMensuales: the report from today minus one month. */
  method GuardarDatosMensuales(ms: seq<Movimiento>, today: Date) returns (text: string)
    ensures text == CsvText(ms, MonthlyCutoff(today))
  {
    text := GuardarArchivo(ms, MonthlyCutoff(today), "Último Mes");
  }

  /** guardarDatosAnuales: the report from today minus one year. */
  method GuardarDatosAnuales(ms: seq<Movimiento>, today: Date) returns (text: string)
    ensures text == CsvText(ms, YearlyCutoff(today))
  {
    text := GuardarArchivo(ms, YearlyCutoff(today), "Último Año");
  }

  // ---------------------------------------------------------------------
  // Counting lines.

  function Count(s: string, c: char): nat
  {
    if s == [] then 0 else (if s[0] == c then 1 else 0) + Count(s[1..], c)
  }

  lemma {:induction false} CountConcat(a: string, b: string, c: char)
    ensures Count(a + b, c) == Count(a, c) + Count(b, c)
    decreases |a|
  {
    if a == [] {
      assert a + b == b;
    } else {
      assert (a + b)[1..] == a[1..] + b;
      CountConcat(a[1..], b, c);
    }
  }

  predicate Lacks(s: string, c: char)
  {
    forall i :: 0 <= i < |s| ==> s[i] != c
  }

  lemma {:induction false} CountLacks(s: string, c: char)
    requires Lacks(s, c)
    ensures Count(s, c) == 0
    decreases |s|
  {
    if s != [] {
      CountLacks(s[1..], c);
    }
  }

  lemma LacksConcat(a: string, b: string, c: char)
    requires Lacks(a, c) && Lacks(b, c)
    ensures Lacks(a + b, c)
  {
    forall i | 0 <= i < |a + b| ensures (a + b)[i] != c {
      if i >= |a| {
        assert (a + b)[i] == b[i - |a|];
      }
    }
  }

  lemma DigitsLack(s: string, c: char)
    requires AllDigits(s) && !IsDigit(c)
    ensures Lacks(s, c)
  {
  }

  lemma PaddedLacks(n: nat, w: nat, c: char)
    requires !IsDigit(c) && c != '0'
    ensures Lacks(PadLeft(NatText(n), w, '0'), c)
  {
    var t := NatText(n);
    var p := PadLeft(t, w, '0');
    NatTextRoundTrip(n);
    forall i | 0 <= i < |p| ensures p[i] != c {
      if i >= |p| - |t| {
        assert p[i] == p[|p| - |t|..][i - (|p| - |t|)];
      }
    }
  }

  lemma LacksJoin(a: string, b: string, c: string, d: string, e: string, ch: char)
    requires Lacks(a, ch) && Lacks(b, ch) && Lacks(c, ch) && Lacks(d, ch) && Lacks(e, ch)
    ensures Lacks(a + b + c + d + e, ch)
  {
    LacksConcat(a, b, ch);
    LacksConcat(a + b, c, ch);
    LacksConcat(a + b + c, d, ch);
    LacksConcat(a + b + c + d, e, ch);
  }

  lemma ShortLacks(s: string, ch: char)
    requires |s| <= 1 && (|s| == 1 ==> s[0] != ch)
    ensures Lacks(s, ch)
  {
  }

  lemma FieldsLack(sign: string, yv: nat, m: int, dd: int)
    requires 0 <= m < 100 && 0 <= dd < 100 && Lacks(sign, '\n')
    ensures Lacks(FieldsText(sign, yv, m, dd), '\n')
  {
    var y4 := PadLeft(NatText(yv), 4, '0');
    var ms := TwoDigits(m);
    var ds := TwoDigits(dd);
    PaddedLacks(yv, 4, '\n');
    PaddedLacks(m, 2, '\n');
    PaddedLacks(dd, 2, '\n');
    var dash: string := "-";
    ShortLacks(dash, '\n');
    LacksJoin(sign + y4, dash, ms, dash, ds, '\n') by {
      LacksConcat(sign, y4, '\n');
    }
  }

  lemma SignLacks(yoe: nat)
    ensures Lacks(YearSign(yoe), '\n')
  {
  }

  /** The yyyy-MM-dd text of a date has no newline. */
  lemma DateLacksNewline(d: Date)
    ensures Lacks(PatternText(d), '\n')
  {
    var yoe := YearOfEra(d.year);
    SignLacks(yoe);
    FieldsLack(YearSign(yoe), yoe, d.month, d.day);
  }

  /** The two-decimal text of an amount has no newline. */
  lemma AmountLacksNewline(x: real)
    ensures Lacks(Fixed2(x), '\n')
  {
    var c := RoundedCents(x);
    var sign: string := if x < 0.0 then "-" else "";
    var ip := NatText(c / 100);
    var fp := PadLeft(NatText(c % 100), 2, '0');
    NatTextRoundTrip(c / 100);
    DigitsLack(ip, '\n');
    PaddedLacks(c % 100, 2, '\n');
    var dot: string := ".";
    var none: string := "";
    ShortLacks(sign, '\n');
    ShortLacks(dot, '\n');
    ShortLacks(none, '\n');
    LacksJoin(sign, ip, dot, fp, none, '\n');
    assert Fixed2(x) == sign + ip + dot + fp + none;
  }

  lemma OneNewline(body: string)
    requires Lacks(body, '\n')
    ensures Count(body + "\n", '\n') == 1
  {
    CountLacks(body, '\n');
    CountConcat(body, "\n", '\n');
    assert Count("\n", '\n') == 1 + Count("", '\n');
  }

  /** A movement whose concept has no newline gives exactly one line. */
  lemma RowIsOneLine(m: Movimiento)
    requires Lacks(m.concepto, '\n')
    ensures Count(CsvRow(m), '\n') == 1
  {
    var p := PatternText(m.fecha);
    var f := Fixed2(m.cantidad);
    DateLacksNewline(m.fecha);
    AmountLacksNewline(m.cantidad);
    var comma: string := ",";
    assert Lacks(comma, '\n');
    LacksConcat(p, comma, '\n');
    LacksConcat(p + comma, m.concepto, '\n');
    LacksConcat(p + comma + m.concepto, comma, '\n');
    LacksConcat(p + comma + m.concepto + comma, f, '\n');
    var body := p + comma + m.concepto + comma + f;
    OneNewline(body);
  }

  lemma {:induction false} RowsAreLines(ms: seq<Movimiento>)
    requires forall i :: 0 <= i < |ms| ==> Lacks(ms[i].concepto, '\n')
    ensures Count(CsvRows(ms), '\n') == |ms|
    decreases |ms|
  {
    if ms != [] {
      RowIsOneLine(ms[0]);
      RowsAreLines(ms[1..]);
      CountConcat(CsvRow(ms[0]), CsvRows(ms[1..]), '\n');
    }
  }

  lemma HeaderIsOneLine()
    ensures Count(HEADER, '\n') == 1
  {
    var h := "Fecha,Concepto,Cantidad";
    assert HEADER == h + "\n";
    OneNewline(h);
  }

  /** The file starts with the header even when no movement qualifies, and,
      when no concept contains a newline, it has one line per movement dated
      after the cutoff plus the header line. */
  lemma CsvShape(ms: seq<Movimiento>, limite: LocalDate)
    requires forall i :: 0 <= i < |ms| ==> Lacks(ms[i].concepto, '\n')
    ensures CsvText(ms, limite)[..|HEADER|] == HEADER
    ensures Count(CsvText(ms, limite), '\n') == 1 + CountAfter(ms, limite)
  {
    var sel := Selected(ms, limite);
    SelectedMembers(ms, limite);
    forall i | 0 <= i < |sel| ensures Lacks(sel[i].concepto, '\n') {
      assert sel[i] in ms;
    }
    RowsAreLines(sel);
    SelectedCount(ms, limite);
    CountConcat(HEADER, CsvRows(sel), '\n');
    HeaderIsOneLine();
  }
}

=== FILE: dao.dfy ===
/**
 model.MovimientoDAO over an abstract database: the MOVIMIENTO table is a map
 from ID to row plus the AUTOINCREMENT counter, and the CHECK constraints of
 the table schema are a validity predicate on rows.

 Each operation takes a flag `reachable` standing for "opening the connection
 and running the statement did not throw SQLException"; every SQL error the
 source catches becomes that flag (or a missing table) and follows the same
 path as in the source.
 */
module Dao {
  import opened Util
  import opened Dates
  import opened Movimientos

  const MAX_CONCEPTO := 25
  const CANTIDAD_LIMIT := 10000000.0

  /** One table row: the CONCEPTO, CANTIDAD and FECHA columns (FECHA in epoch ms). */
  datatype Row = Row(concepto: string, cantidad: real, fecha: int)

  // ---------------------------------------------------------------------
  // The CHECK constraints of CREATE TABLE MOVIMIENTO.

  /** CAST(x AS INTEGER): truncation toward zero. */
  function Trunc(x: real): (r: int)
    ensures x >= 0.0 ==> r as real <= x < r as real + 1.0
    ensures x < 0.0 ==> r as real - 1.0 < x <= r as real
  {
    if x >= 0.0 then x.Floor else -((-x).Floor)
  }

  /** (CANTIDAD * 100) = CAST(CANTIDAD * 100 AS INTEGER), evaluated on the
      exact amount; SQLite evaluates it on a double, where the product of a
      whole number of cents can fall just below an integer. */
  predicate HasTwoDecimals(c: real)
  {
    Trunc(c * 100.0) as real == c * 100.0
  }

  predicate ValidConcepto(c: string)
  {
    |c| <= MAX_CONCEPTO && |c| > 0
  }

  predicate ValidCantidad(c: real)
  {
    c > -CANTIDAD_LIMIT && c < CANTIDAD_LIMIT && c != 0.0 && HasTwoDecimals(c)
  }

  predicate ValidFecha(ms: int)
  {
    ms >= 0
  }

  predicate ValidRow(r: Row)
  {
    ValidConcepto(r.concepto) && ValidCantidad(r.cantidad) && ValidFecha(r.fecha)
  }

  /** On exact amounts, the precision check accepts exactly the whole
      numbers of cents. */
  lemma TwoDecimalsIsCents(c: real)
    ensures HasTwoDecimals(c) <==> c == (c * 100.0).Floor as real / 100.0
  {
    var x := c * 100.0;
    assert HasTwoDecimals(c) <==> x.Floor as real == x by {
      if x < 0.0 {
        var f := (-x).Floor;
        if Trunc(x) as real == x {
          assert x == (-f) as real;
          assert ((-f) as real).Floor == -f;
        }
        if x.Floor as real == x {
          var g := x.Floor;
          assert -x == (-g) as real;
          assert ((-g) as real).Floor == -g;
        }
      }
    }
  }

  // ---------------------------------------------------------------------
  // The database file.

  /** The database: whether the MOVIMIENTO table exists, its rows by ID, and
      the largest ID ever issued (SQLite's sqlite_sequence entry). */
  datatype Db = Db(hasTable: bool, rows: map<int, Row>, lastId: int)

  /** A database file that has just been opened for the first time. */
  const EMPTY_FILE := Db(false, map[], 0)

  /** The table invariant: every row satisfies the CHECK constraints and every
      ID is one the counter has issued. */
  predicate WellFormed(db: Db)
  {
    && db.lastId >= 0
    && (!db.hasTable ==> db.rows == map[])
    && forall id :: id in db.rows ==> 1 <= id <= db.lastId && ValidRow(db.rows[id])
  }

  /** crearBaseDeDatos: a first connection decides the result
      (`reachable`); crearTablaMovimiento then opens a second one and runs
      CREATE TABLE (`createOk`), swallowing every error, "table already
      exists" included. The two outcomes are independent. */
  function CrearBaseDeDatos(db: Db, reachable: bool, createOk: bool): (r: (Db, bool))
    ensures r.1 == reachable
    ensures r.0.rows == db.rows && r.0.lastId == db.lastId
    ensures r.0.hasTable == (db.hasTable || createOk)
    ensures WellFormed(db) ==> WellFormed(r.0)
  {
    var created := if createOk && !db.hasTable then db.(hasTable := true) else db;
    (created, reachable)
  }

  /** Creating the database again never changes it further: the rows stay,
      and once a CREATE TABLE has run a second call changes nothing. */
  lemma CrearIdempotent(db: Db, ok1: bool, create1: bool, ok2: bool, create2: bool)
    ensures CrearBaseDeDatos(CrearBaseDeDatos(db, ok1, create1).0, ok2, create2).0.rows == db.rows
    ensures create1 ==>
      CrearBaseDeDatos(CrearBaseDeDatos(db, ok1, create1).0, ok2, create2).0 == CrearBaseDeDatos(db, ok1, create1).0
  {
  }

  /** The result reports the first connection only: it can be true with no
      table (CREATE TABLE failed) and false with the table created. */
  lemma CrearResultNotTable(db: Db)
    requires !db.hasTable
    ensures var r := CrearBaseDeDatos(db, true, false); r.1 && !r.0.hasTable
    ensures var r := CrearBaseDeDatos(db, false, true); !r.1 && r.0.hasTable
  {
  }

  // ---------------------------------------------------------------------
  // Writing and deleting.

  /** The row an INSERT writes for a movement; the movement's own id is not used. */
  function RowOf(m: Movimiento): Row
  {
    Row(m.concepto, m.cantidad, m.FechaToDate())
  }

  /** escribirMovimiento: INSERT without an ID; SQLite issues the next
      AUTOINCREMENT value. A constraint violation or SQL error gives false. */
  function EscribirMovimiento(db: Db, m: Movimiento, reachable: bool): (r: (Db, bool))
    ensures r.1 <==> reachable && db.hasTable && ValidConcepto(m.concepto)
                     && ValidCantidad(m.cantidad) && m.fecha.year >= EPOCH_YEAR
    ensures !r.1 ==> r.0 == db
    ensures r.1 ==> r.0.hasTable && r.0.lastId == db.lastId + 1
                    && r.0.rows == db.rows[r.0.lastId := RowOf(m)]
    ensures WellFormed(db) ==> WellFormed(r.0)
    ensures WellFormed(db) && r.1 ==>
              r.0.lastId !in db.rows && |r.0.rows| == |db.rows| + 1
              && forall id :: id in db.rows ==> id < r.0.lastId
  {
    var row := RowOf(m);
    if reachable && db.hasTable && ValidRow(row) then
      var id := db.lastId + 1;
      (db.(rows := db.rows[id := row], lastId := id), true)
    else
      (db, false)
  }

  /** The id a caller puts in the record plays no part in the insert. */
  lemma InsertIgnoresId(db: Db, m: Movimiento, x: int, reachable: bool)
    ensures EscribirMovimiento(db, m.SetId(x), reachable) == EscribirMovimiento(db, m, reachable)
  {
  }

  /** borrarMovimiento: DELETE ... WHERE ID = id. True whenever the statement
      ran, whether or not a row matched; false only on an SQL error. */
  function BorrarMovimiento(db: Db, id: int, reachable: bool): (r: (Db, bool))
    ensures r.1 <==> reachable && db.hasTable
    ensures !r.1 ==> r.0 == db
    ensures r.1 ==> r.0.rows.Keys == db.rows.Keys - {id}
    ensures forall k :: k in r.0.rows ==> k in db.rows && r.0.rows[k] == db.rows[k]
    ensures forall k :: k in db.rows && k != id ==> k in r.0.rows
    ensures r.0.hasTable == db.hasTable && r.0.lastId == db.lastId
    ensures WellFormed(db) ==> WellFormed(r.0)
  {
    if reachable && db.hasTable then (db.(rows := db.rows - {id}), true)
    else (db, false)
  }

  // ---------------------------------------------------------------------
  // Reading.

  /** The date the DAO rebuilds from FECHA: YEAR, MONTH + 1 and DAY_OF_MONTH
      of a calendar set to that instant. */
  function DecodeFecha(ms: int): Date
  {
    var f := CalendarFields(ms);
    LocalDate(f.0, f.1 + 1, f.2)
  }

  /** Writing a date with fechaToDate and reading it back with the DAO's
      MONTH + 1 reconstruction gives the original date. */
  lemma FechaRoundTrip(m: Movimiento)
    ensures DecodeFecha(m.FechaToDate()) == m.fecha
  {
    CalendarRoundTrip(m.fecha.year, m.fecha.month - 1, m.fecha.day);
  }

  function ToMovimiento(id: int, row: Row): Movimiento
  {
    Movimiento(id, row.concepto, row.cantidad, DecodeFecha(row.fecha))
  }

  /** obtenerMovimientoPorId: the stored record under exactly that id, or
      null (None) when there is no such row or the query fails. */
  function ObtenerMovimientoPorId(db: Db, id: int, reachable: bool): (r: Option<Movimiento>)
    ensures r.Some? <==> reachable && db.hasTable && id in db.rows
    ensures r.Some? ==> r.value.id == id
                        && r.value.concepto == db.rows[id].concepto
                        && r.value.cantidad == db.rows[id].cantidad
                        && r.value.FechaToDate() == db.rows[id].fecha - db.rows[id].fecha % MILLIS_PER_DAY
  {
    if reachable && db.hasTable && id in db.rows then
      var m := ToMovimiento(id, db.rows[id]);
      CalendarFieldsContain(db.rows[id].fecha);
      assert LocalDate(m.fecha.year, m.fecha.month - 1 + 1, m.fecha.day) == m.fecha;
      Some(m)
    else None
  }

  /** A successful insert followed by a lookup of the issued id finds the
      movement that was written, carrying the new id. */
  lemma InsertThenLookup(db: Db, m: Movimiento)
    requires EscribirMovimiento(db, m, true).1
    ensures var db' := EscribirMovimiento(db, m, true).0;
      ObtenerMovimientoPorId(db', db'.lastId, true) == Some(m.SetId(db'.lastId))
  {
    FechaRoundTrip(m);
  }

  /** The three shapes of SELECT the application issues: an optional lower
      bound on FECHA and an optional ORDER BY FECHA DESC. */
  datatype Query = Query(since: Option<int>, newestFirst: bool)

  const SELECT_ALL := Query(None, false)

  predicate Passes(row: Row, since: Option<int>)
  {
    since.None? || row.fecha >= since.value
  }

  /** The least element of a non-empty set of ids. */
  function MinId(s: set<int>): (m: int)
    requires s != {}
    ensures m in s && forall k :: k in s ==> m <= k
  {
    MinExists(s);
    var m :| m in s && forall k :: k in s ==> m <= k;
    m
  }

  lemma {:induction false} MinExists(s: set<int>)
    requires s != {}
    ensures exists m :: m in s && forall k :: k in s ==> m <= k
    decreases |s|
  {
    assert exists x :: x in s by {
      if forall x :: x !in s {
        assert false;
      }
    }
    var x :| x in s;
    if s != {x} {
      MinExists(s - {x});
      var y :| y in s - {x} && forall k :: k in s - {x} ==> y <= k;
      var m := if x < y then x else y;
      forall k | k in s ensures m <= k {
        if k != x {
          assert k in s - {x};
        }
      }
    } else {
      assert forall k :: k in s ==> x <= k;
    }
  }

  /** A table scan: the ids in rowid (ascending) order. */
  function RowidOrder(s: set<int>): (r: seq<int>)
    ensures |r| == |s|
    ensures forall i :: 0 <= i < |r| ==> r[i] in s
    ensures forall k :: k in s ==> k in r
    ensures forall i, j :: 0 <= i < j < |r| ==> r[i] < r[j]
    decreases |s|
  {
    if s == {} then []
    else
      var m := MinId(s);
      var rest := RowidOrder(s - {m});
      ConsSorted(m, rest);
      [m] + rest
  }

  /** A value below every element, put in front of an ascending list,
      keeps it ascending. */
  lemma ConsSorted(m: int, rest: seq<int>)
    requires forall i :: 0 <= i < |rest| ==> m < rest[i]
    requires forall i, j :: 0 <= i < j < |rest| ==> rest[i] < rest[j]
    ensures forall i, j :: 0 <= i < j < |[m] + rest| ==> ([m] + rest)[i] < ([m] + rest)[j]
  {
  }

  /** WHERE FECHA >= since, keeping the scan order. */
  function Where(ids: seq<int>, rows: map<int, Row>, since: Option<int>): (r: seq<int>)
    requires forall i :: 0 <= i < |ids| ==> ids[i] in rows
    ensures forall i :: 0 <= i < |r| ==> r[i] in ids && Passes(rows[r[i]], since)
    ensures forall i :: 0 <= i < |ids| && Passes(rows[ids[i]], since) ==> ids[i] in r
    ensures (forall i, j :: 0 <= i < j < |ids| ==> ids[i] < ids[j]) ==>
              forall i, j :: 0 <= i < j < |r| ==> r[i] < r[j]
  {
    if ids == [] then []
    else
      var rest := Where(ids[1..], rows, since);
      if Passes(rows[ids[0]], since) then [ids[0]] + rest else rest
  }

  /** ORDER BY FECHA DESC, with equal dates in rowid order: `a` comes before `b`. */
  predicate Newer(rows: map<int, Row>, a: int, b: int)
  {
    a in rows && b in rows
    && (rows[a].fecha > rows[b].fecha || (rows[a].fecha == rows[b].fecha && a < b))
  }

  predicate NewestFirst(rows: map<int, Row>, s: seq<int>)
  {
    forall i, j :: 0 <= i < j < |s| ==> Newer(rows, s[i], s[j])
  }

  /** One insertion step of the sort: `x` goes before the first id it is
      newer than. */
  function InsertNewest(rows: map<int, Row>, x: int, s: seq<int>): seq<int>
  {
    if s == [] || Newer(rows, x, s[0]) then [x] + s
    else [s[0]] + InsertNewest(rows, x, s[1..])
  }

  /** Sorting a scan newest first (an insertion sort). */
  function SortNewest(rows: map<int, Row>, s: seq<int>): seq<int>
  {
    if s == [] then [] else InsertNewest(rows, s[0], SortNewest(rows, s[1..]))
  }

  lemma NewerTransitive(rows: map<int, Row>, a: int, b: int, c: int)
    requires Newer(rows, a, b) && Newer(rows, b, c)
    ensures Newer(rows, a, c)
  {
  }

  /** Insertion adds exactly `x`. */
  lemma {:induction false} InsertNewestPerm(rows: map<int, Row>, x: int, s: seq<int>)
    ensures multiset(InsertNewest(rows, x, s)) == multiset(s) + multiset{x}
    decreases |s|
  {
    if s != [] && !Newer(rows, x, s[0]) {
      InsertNewestPerm(rows, x, s[1..]);
      assert s == [s[0]] + s[1..];
    }
  }

  /** Every id of an insertion result is `x` or an id of the list. */
  lemma {:induction false} InsertNewestMembers(rows: map<int, Row>, x: int, s: seq<int>)
    ensures forall k :: 0 <= k < |InsertNewest(rows, x, s)| ==>
              InsertNewest(rows, x, s)[k] == x || InsertNewest(rows, x, s)[k] in s
    decreases |s|
  {
    var r := InsertNewest(rows, x, s);
    if s == [] || Newer(rows, x, s[0]) {
      forall k | 0 < k < |r| ensures r[k] in s {
        assert r[k] == s[k - 1];
      }
    } else {
      var t := InsertNewest(rows, x, s[1..]);
      InsertNewestMembers(rows, x, s[1..]);
      forall k | 0 < k < |r| ensures r[k] == x || r[k] in s {
        assert r[k] == t[k - 1];
        if t[k - 1] != x {
          assert t[k - 1] in s[1..];
        }
      }
    }
  }

  /** Every id of a sort result is an id of the list. */
  lemma {:induction false} SortNewestMembers(rows: map<int, Row>, s: seq<int>)
    ensures forall k :: 0 <= k < |SortNewest(rows, s)| ==> SortNewest(rows, s)[k] in s
    decreases |s|
  {
    if s != [] {
      var t := SortNewest(rows, s[1..]);
      SortNewestMembers(rows, s[1..]);
      InsertNewestMembers(rows, s[0], t);
      forall k | 0 <= k < |SortNewest(rows, s)| ensures SortNewest(rows, s)[k] in s {
        var v := SortNewest(rows, s)[k];
        if v != s[0] {
          var i :| 0 <= i < |t| && t[i] == v;
          assert t[i] in s[1..];
        }
      }
    }
  }

  /** Insertion of a row's id into a newest-first list keeps it newest first. */
  lemma {:induction false} InsertNewestSorted(rows: map<int, Row>, x: int, s: seq<int>)
    requires x in rows && forall i :: 0 <= i < |s| ==> s[i] in rows
    requires x !in s && NewestFirst(rows, s)
    ensures NewestFirst(rows, InsertNewest(rows, x, s))
    decreases |s|
  {
    var r := InsertNewest(rows, x, s);
    if s == [] {
    } else if Newer(rows, x, s[0]) {
      forall i, j | 0 <= i < j < |r| ensures Newer(rows, r[i], r[j]) {
        if i == 0 && j > 1 {
          NewerTransitive(rows, x, s[0], s[j - 1]);
        }
      }
    } else {
      var t := InsertNewest(rows, x, s[1..]);
      InsertNewestMembers(rows, x, s[1..]);
      InsertNewestSorted(rows, x, s[1..]);
      assert Newer(rows, s[0], x);
      forall k | 0 <= k < |t| ensures Newer(rows, s[0], t[k]) {
        if t[k] != x {
          var j :| 0 <= j < |s[1..]| && s[1..][j] == t[k];
          assert s[j + 1] == t[k];
        }
      }
      assert r == [s[0]] + t;
      forall i, j | 0 <= i < j < |r| ensures Newer(rows, r[i], r[j]) {
        if i == 0 {
          assert r[j] == t[j - 1];
        } else {
          assert r[i] == t[i - 1] && r[j] == t[j - 1];
        }
      }
    }
  }

  /** The sorted tail of a list of distinct ids of rows holds rows only, and
      not the head. */
  lemma SortedTail(rows: map<int, Row>, s: seq<int>)
    requires s != [] && forall i :: 0 <= i < |s| ==> s[i] in rows
    requires forall i, j :: 0 <= i < j < |s| ==> s[i] != s[j]
    ensures s[0] !in SortNewest(rows, s[1..])
    ensures forall i :: 0 <= i < |SortNewest(rows, s[1..])| ==> SortNewest(rows, s[1..])[i] in rows
  {
    var t := SortNewest(rows, s[1..]);
    SortNewestMembers(rows, s[1..]);
    assert s[0] !in s[1..];
    forall i | 0 <= i < |t| ensures t[i] in rows {
      var j :| 0 <= j < |s[1..]| && s[1..][j] == t[i];
      assert s[j + 1] == t[i];
    }
  }

  /** The sort returns the same ids, newest first. */
  lemma {:induction false} SortNewestSpec(rows: map<int, Row>, s: seq<int>)
    requires forall i :: 0 <= i < |s| ==> s[i] in rows
    requires forall i, j :: 0 <= i < j < |s| ==> s[i] != s[j]
    ensures multiset(SortNewest(rows, s)) == multiset(s)
    ensures NewestFirst(rows, SortNewest(rows, s))
    decreases |s|
  {
    if s != [] {
      var t := SortNewest(rows, s[1..]);
      SortNewestSpec(rows, s[1..]);
      SortedTail(rows, s);
      assert s == [s[0]] + s[1..];
      InsertNewestPerm(rows, s[0], t);
      InsertNewestSorted(rows, s[0], t);
    }
  }

  function Decode(ids: seq<int>, rows: map<int, Row>): (r: seq<Movimiento>)
    requires forall i :: 0 <= i < |ids| ==> ids[i] in rows
    ensures |r| == |ids|
    ensures forall i :: 0 <= i < |r| ==> r[i] == ToMovimiento(ids[i], rows[ids[i]])
  {
    if ids == [] then [] else [ToMovimiento(ids[0], rows[ids[0]])] + Decode(ids[1..], rows)
  }

  /** The ids a successful query returns, in result order. */
  function QueryIds(db: Db, q: Query): (r: seq<int>)
    ensures forall i :: 0 <= i < |r| ==> r[i] in db.rows && Passes(db.rows[r[i]], q.since)
    ensures forall id :: id in db.rows && Passes(db.rows[id], q.since) ==> id in r
    ensures forall i, j :: 0 <= i < j < |r| ==> r[i] != r[j]
    ensures q.newestFirst ==> NewestFirst(db.rows, r)
    ensures !q.newestFirst ==> forall i, j :: 0 <= i < j < |r| ==> r[i] < r[j]
  {
    var scan := RowidOrder(db.rows.Keys);
    var kept := Where(scan, db.rows, q.since);
    if q.newestFirst then
      SortNewestFacts(db.rows, kept);
      SortNewest(db.rows, kept)
    else kept
  }

  /** The sort of distinct ids of rows holds the same ids, each once,
      newest first. */
  lemma SortNewestFacts(rows: map<int, Row>, s: seq<int>)
    requires forall i :: 0 <= i < |s| ==> s[i] in rows
    requires forall i, j :: 0 <= i < j < |s| ==> s[i] != s[j]
    ensures var t := SortNewest(rows, s);
      && (forall i :: 0 <= i < |t| ==> t[i] in s)
      && (forall x :: x in s ==> x in t)
      && (forall i, j :: 0 <= i < j < |t| ==> t[i] != t[j])
      && NewestFirst(rows, t)
  {
    var t := SortNewest(rows, s);
    SortNewestSpec(rows, s);
    SortNewestMembers(rows, s);
    assert forall x :: x in s ==> x in multiset(t);
    forall i, j | 0 <= i < j < |t| ensures t[i] != t[j] {
      DistinctCount(s, t[i]);
    }
  }

  /** In a list of distinct ids every id occurs at most once. */
  lemma {:induction false} DistinctCount(s: seq<int>, x: int)
    requires forall i, j :: 0 <= i < j < |s| ==> s[i] != s[j]
    ensures multiset(s)[x] <= 1
    decreases |s|
  {
    if s != [] {
      DistinctCount(s[1..], x);
      assert s == [s[0]] + s[1..];
      if s[0] == x {
        assert x !in s[1..];
      }
    }
  }

  /** The ids of a sequence of records, in order. */
  function Ids(ms: seq<Movimiento>): (r: seq<int>)
    ensures |r| == |ms| && forall i :: 0 <= i < |ms| ==> r[i] == ms[i].id
  {
    seq(|ms|, i requires 0 <= i < |ms| => ms[i].id)
  }

  /** Decoding keeps the ids in order. */
  lemma IdsOfDecode(ids: seq<int>, rows: map<int, Row>)
    requires forall i :: 0 <= i < |ids| ==> ids[i] in rows
    ensures Ids(Decode(ids, rows)) == ids
  {
    var r := Decode(ids, rows);
    assert forall i :: 0 <= i < |ids| ==> Ids(r)[i] == ids[i];
  }

  /** leerMovimientos: one record per result row, in result order; an empty
      array when the query fails. */
  function LeerMovimientos(db: Db, q: Query, reachable: bool): (r: seq<Movimiento>)
    ensures !(reachable && db.hasTable) ==> r == []
    ensures reachable && db.hasTable ==> Ids(r) == QueryIds(db, q)
    ensures forall i :: 0 <= i < |r| ==>
              r[i].id in db.rows && r[i] == ToMovimiento(r[i].id, db.rows[r[i].id])
  {
    if reachable && db.hasTable then
      var ids := QueryIds(db, q);
      IdsOfDecode(ids, db.rows);
      Decode(ids, db.rows)
    else []
  }

  /** What a successful read returns: exactly the rows that pass the WHERE
      bound, each once, each decoded from its row. */
  lemma LeerContents(db: Db, q: Query, reachable: bool)
    requires reachable && db.hasTable
    ensures var r := LeerMovimientos(db, q, reachable);
      && (forall i :: 0 <= i < |r| ==> r[i].id in db.rows && Passes(db.rows[r[i].id], q.since))
      && (forall id :: id in db.rows && Passes(db.rows[id], q.since) ==> id in Ids(r))
      && (forall i, j :: 0 <= i < j < |r| ==> r[i].id != r[j].id)
  {
    var r := LeerMovimientos(db, q, reachable);
    assert Ids(r) == QueryIds(db, q);
  }

  /** Later instants never decode to an earlier date. */
  lemma DecodeMonotone(ms1: int, ms2: int)
    requires ms1 <= ms2
    ensures !IsAfter(DecodeFecha(ms1), DecodeFecha(ms2))
  {
    CalendarMonotone(ms1, ms2);
  }

  /** With ORDER BY FECHA DESC the records come newest first: no record is
      dated after one that precedes it. */
  lemma NewestFirstDates(db: Db, q: Query, reachable: bool)
    requires q.newestFirst
    ensures var r := LeerMovimientos(db, q, reachable);
      forall i, j :: 0 <= i < j < |r| ==> !IsAfter(r[j].fecha, r[i].fecha)
  {
    var r := LeerMovimientos(db, q, reachable);
    if reachable && db.hasTable {
      var ids := QueryIds(db, q);
      assert Ids(r) == ids;
      forall i, j | 0 <= i < j < |r| ensures !IsAfter(r[j].fecha, r[i].fecha) {
        assert r[i].id == ids[i] && r[j].id == ids[j];
        assert Newer(db.rows, ids[i], ids[j]);
        DecodeMonotone(db.rows[ids[j]].fecha, db.rows[ids[i]].fecha);
      }
    }
  }
}

=== FILE: dates.dfy ===
/**
 The calendar arithmetic the ledger borrows from java.time.LocalDate and
 java.util.GregorianCalendar: valid dates, their day count from 1970-01-01,
 the midnight instant in epoch milliseconds and back, date order, one month
 and one year back, and the two textual forms of a date.

 The calendar is the proleptic Gregorian one and the time zone is UTC.
 */
module Dates {
  import opened Util
  import Text

  const EPOCH_YEAR := 1970
  const MILLIS_PER_DAY := 86400000

  predicate IsLeapYear(y: int)
  {
    y % 4 == 0 && (y % 100 != 0 || y % 400 == 0)
  }

  function YearLength(y: int): int
  {
    if IsLeapYear(y) then 366 else 365
  }

  function MonthLength(y: int, m: int): int
    requires 1 <= m <= 12
  {
    if m == 2 then (if IsLeapYear(y) then 29 else 28)
    else if m == 4 || m == 6 || m == 9 || m == 11 then 30
    else 31
  }

  /** A java.time.LocalDate: month 1..12, day within the month. */
  datatype LocalDate = LocalDate(year: int, month: int, day: int)
  {
    predicate Valid()
    {
      1 <= month <= 12 && 1 <= day <= MonthLength(year, month)
    }
  }

  type Date = d: LocalDate | d.Valid() witness LocalDate(1970, 1, 1)

  /** Days of year y before the first day of month m. */
  function DaysBeforeMonth(y: int, m: int): int
    requires 1 <= m <= 12
  {
    var common := match m
      case 1 => 0 case 2 => 31 case 3 => 59 case 4 => 90
      case 5 => 120 case 6 => 151 case 7 => 181 case 8 => 212
      case 9 => 243 case 10 => 273 case 11 => 304 case _ => 334;
    common + (if m > 2 && IsLeapYear(y) then 1 else 0)
  }

  lemma MonthStep(y: int, m: int)
    requires 1 <= m <= 12
    ensures m < 12 ==> DaysBeforeMonth(y, m + 1) == DaysBeforeMonth(y, m) + MonthLength(y, m)
    ensures m == 12 ==> DaysBeforeMonth(y, m) + MonthLength(y, m) == YearLength(y)
  {
  }

  /** Later months start later, by at least the length of every month in between. */
  lemma MonthOrder(y: int, m1: int, m2: int)
    requires 1 <= m1 < m2 <= 12
    ensures DaysBeforeMonth(y, m2) >= DaysBeforeMonth(y, m1) + MonthLength(y, m1)
  {
  }

  /** Days from 1970-01-01 to the first day of year y (negative before 1970). */
  function DaysBeforeYear(y: int): int
    decreases if y < EPOCH_YEAR then EPOCH_YEAR - y else y - EPOCH_YEAR
  {
    if y == EPOCH_YEAR then 0
    else if y > EPOCH_YEAR then DaysBeforeYear(y - 1) + YearLength(y - 1)
    else DaysBeforeYear(y + 1) - YearLength(y)
  }

  lemma YearStep(y: int)
    ensures DaysBeforeYear(y + 1) == DaysBeforeYear(y) + YearLength(y)
  {
  }

  /** A later year starts at least 365 days per year later. */
  lemma {:induction false} YearOrder(a: int, b: int)
    requires a <= b
    ensures DaysBeforeYear(b) - DaysBeforeYear(a) >= 365 * (b - a)
    decreases b - a
  {
    if a < b {
      YearOrder(a, b - 1);
      YearStep(b - 1);
    }
  }

  /** Number of days from 1970-01-01 to d. */
  function EpochDay(d: Date): int
  {
    DaysBeforeYear(d.year) + DaysBeforeMonth(d.year, d.month) + d.day - 1
  }

  lemma EpochDayInYear(d: Date)
    ensures DaysBeforeYear(d.year) <= EpochDay(d) < DaysBeforeYear(d.year + 1)
  {
    YearStep(d.year);
    if d.month < 12 {
      MonthOrder(d.year, d.month, 12);
    }
    MonthStep(d.year, 12);
  }

  /** The date whose day-of-year (0-based) is k, searching from month m on. */
  function DateInYear(y: int, k: int, m: int): (r: Date)
    requires 1 <= m <= 12
    requires DaysBeforeMonth(y, m) <= k < YearLength(y)
    ensures r.year == y && m <= r.month
    ensures DaysBeforeMonth(y, r.month) + r.day - 1 == k
    decreases 12 - m
  {
    MonthStep(y, m);
    if m == 12 || k < DaysBeforeMonth(y, m + 1) then LocalDate(y, m, k - DaysBeforeMonth(y, m) + 1)
    else DateInYear(y, k, m + 1)
  }

  /** The date k days after the first day of year y (k may be negative or
      exceed the year, in which case the search walks to the right year). */
  function Locate(y: int, k: int): (r: Date)
    ensures EpochDay(r) == DaysBeforeYear(y) + k
    decreases k < 0 || k >= YearLength(y), if k < 0 then -k else k
  {
    if k < 0 then
      YearStep(y - 1);
      Locate(y - 1, k + YearLength(y - 1))
    else if k >= YearLength(y) then
      YearStep(y);
      Locate(y + 1, k - YearLength(y))
    else
      DateInYear(y, k, 1)
  }

  /** The date n days after 1970-01-01. */
  function FromEpochDay(n: int): (r: Date)
    ensures EpochDay(r) == n
  {
    Locate(EPOCH_YEAR, n)
  }

  /** LocalDate.isAfter: strictly later in (year, month, day) order. */
  predicate IsAfter(a: LocalDate, b: LocalDate)
  {
    a.year > b.year
    || (a.year == b.year && (a.month > b.month || (a.month == b.month && a.day > b.day)))
  }

  lemma EpochDayAfter(a: Date, b: Date)
    requires IsAfter(a, b)
    ensures EpochDay(a) > EpochDay(b)
  {
    EpochDayInYear(a);
    EpochDayInYear(b);
    if a.year > b.year {
      YearOrder(b.year + 1, a.year);
    } else if a.month > b.month {
      MonthOrder(a.year, b.month, a.month);
    }
  }

  /** The day count orders dates exactly as LocalDate.isAfter does. */
  lemma EpochDayOrder(a: Date, b: Date)
    ensures IsAfter(a, b) <==> EpochDay(a) > EpochDay(b)
    ensures EpochDay(a) == EpochDay(b) <==> a == b
  {
    if IsAfter(a, b) {
      EpochDayAfter(a, b);
    } else if IsAfter(b, a) {
      EpochDayAfter(b, a);
    } else {
      assert a == b;
    }
  }

  /** Counting days and locating a day count are mutually inverse. */
  lemma EpochDayRoundTrip(d: Date, n: int)
    ensures FromEpochDay(EpochDay(d)) == d
    ensures EpochDay(FromEpochDay(n)) == n
  {
    EpochDayOrder(FromEpochDay(EpochDay(d)), d);
  }

  // ---------------------------------------------------------------------
  // GregorianCalendar: a 0-based MONTH field and epoch milliseconds (UTC).

  /** new GregorianCalendar(year, month0, day).getTime().getTime(): midnight
      of the date whose 0-based month is month0. */
  function CalendarMillis(year: int, month0: int, day: int): (ms: int)
    requires LocalDate(year, month0 + 1, day).Valid()
    ensures ms % MILLIS_PER_DAY == 0
  {
    EpochDay(LocalDate(year, month0 + 1, day)) * MILLIS_PER_DAY
  }

  /** Calendar.get(YEAR), get(MONTH), get(DAY_OF_MONTH) after setTime(ms):
      the date of the day containing the instant, with a 0-based month. */
  function CalendarFields(ms: int): (f: (int, int, int))
    ensures 0 <= f.1 < 12 && LocalDate(f.0, f.1 + 1, f.2).Valid()
  {
    var d := FromEpochDay(ms / MILLIS_PER_DAY);
    (d.year, d.month - 1, d.day)
  }

  /** Reading the calendar fields of a midnight instant gives back the fields it was built from. */
  lemma CalendarRoundTrip(year: int, month0: int, day: int)
    requires LocalDate(year, month0 + 1, day).Valid()
    ensures CalendarFields(CalendarMillis(year, month0, day)) == (year, month0, day)
  {
    var d: Date := LocalDate(year, month0 + 1, day);
    assert CalendarMillis(year, month0, day) / MILLIS_PER_DAY == EpochDay(d);
    EpochDayRoundTrip(d, 0);
  }

  /** Every instant lies in the day that starts at the midnight of its calendar date. */
  lemma CalendarFieldsContain(ms: int)
    ensures var f := CalendarFields(ms);
      CalendarMillis(f.0, f.1, f.2) <= ms < CalendarMillis(f.0, f.1, f.2) + MILLIS_PER_DAY
  {
    var d := FromEpochDay(ms / MILLIS_PER_DAY);
    assert LocalDate(d.year, d.month - 1 + 1, d.day) == d;
  }

  /** A midnight instant is non-negative exactly when the year is 1970 or later. */
  lemma MillisNonNegative(d: Date)
    ensures CalendarMillis(d.year, d.month - 1, d.day) >= 0 <==> d.year >= EPOCH_YEAR
  {
    assert LocalDate(d.year, d.month - 1 + 1, d.day) == d;
    EpochDayInYear(d);
    if d.year >= EPOCH_YEAR {
      YearOrder(EPOCH_YEAR, d.year);
    } else {
      YearOrder(d.year + 1, EPOCH_YEAR);
    }
  }

  /** Later instants never fall on an earlier calendar date. */
  lemma CalendarMonotone(ms1: int, ms2: int)
    requires ms1 <= ms2
    ensures var f1 := CalendarFields(ms1); var f2 := CalendarFields(ms2);
      !IsAfter(LocalDate(f1.0, f1.1 + 1, f1.2), LocalDate(f2.0, f2.1 + 1, f2.2))
  {
    var d1 := FromEpochDay(ms1 / MILLIS_PER_DAY);
    var d2 := FromEpochDay(ms2 / MILLIS_PER_DAY);
    assert LocalDate(d1.year, d1.month - 1 + 1, d1.day) == d1;
    assert LocalDate(d2.year, d2.month - 1 + 1, d2.day) == d2;
    EpochDayOrder(d1, d2);
  }

  // ---------------------------------------------------------------------
  // LocalDate.minusMonths(1) and LocalDate.minusYears(1).

  /** The same day of the previous month, clamped to that month's last day. */
  function MinusOneMonth(d: Date): (r: Date)
    ensures IsAfter(d, r)
    ensures EpochDay(d) - 31 <= EpochDay(r) < EpochDay(d)
  {
    var y := if d.month == 1 then d.year - 1 else d.year;
    var m := if d.month == 1 then 12 else d.month - 1;
    var r := LocalDate(y, m, Min(d.day, MonthLength(y, m)));
    MonthStep(y, m);
    YearStep(y);
    EpochDayAfter(d, r);
    r
  }

  /** The same day of the previous year; 29 February becomes 28 February. */
  function MinusOneYear(d: Date): (r: Date)
    ensures IsAfter(d, r)
    ensures EpochDay(d) - 366 <= EpochDay(r) <= EpochDay(d) - 365
  {
    var r := LocalDate(d.year - 1, d.month, Min(d.day, MonthLength(d.year - 1, d.month)));
    YearStep(d.year - 1);
    EpochDayAfter(d, r);
    r
  }

  // ---------------------------------------------------------------------
  // Text forms of a date.

  function TwoDigits(n: int): string
    requires 0 <= n < 100
  {
    Text.PadLeft(Text.NatText(n), 2, '0')
  }

  /** A signed year padded to four digits, then the two-digit month and day. */
  function FieldsText(sign: string, yv: nat, m: int, dd: int): string
    requires 0 <= m < 100 && 0 <= dd < 100
  {
    sign + Text.PadLeft(Text.NatText(yv), 4, '0') + "-" + TwoDigits(m) + "-" + TwoDigits(dd)
  }

  /** LocalDate.toString(): ISO-8601, four-digit year with a sign when negative
      and a '+' beyond 9999. */
  function IsoText(d: Date): string
  {
    var a := if d.year < 0 then -d.year else d.year;
    FieldsText(if d.year < 0 then "-" else if d.year > 9999 then "+" else "", a, d.month, d.day)
  }

  /** DateTimeFormatter.ofPattern("yyyy-MM-dd"): the year of the era, padded
      to four digits, with a '+' once it needs five. */
  function PatternText(d: Date): string
  {
    var yoe := YearOfEra(d.year);
    FieldsText(YearSign(yoe), yoe, d.month, d.day)
  }

  /** The year of the era: 1 BC (proleptic year 0) is year 1 of its era. */
  function YearOfEra(year: int): nat
  {
    if year >= 1 then year else 1 - year
  }

  /** The sign a yyyy pattern prints: '+' once the year needs five digits. */
  function YearSign(yoe: nat): string
  {
    if yoe > 9999 then "+" else ""
  }

  /** Three digit fields joined by '-' read back field by field. */
  lemma DateLayout(y: string, m: string, dd: string)
    requires |y| == 4 && |m| == 2 && |dd| == 2
    requires Text.AllDigits(y) && Text.AllDigits(m) && Text.AllDigits(dd)
    ensures var t := y + "-" + m + "-" + dd;
      |t| == 10 && t[4] == '-' && t[7] == '-'
      && Text.AllDigits(t[..4]) && Text.AllDigits(t[5..7]) && Text.AllDigits(t[8..])
      && Text.DigitsValue(t[..4]) == Text.DigitsValue(y)
      && Text.DigitsValue(t[5..7]) == Text.DigitsValue(m)
      && Text.DigitsValue(t[8..]) == Text.DigitsValue(dd)
  {
    var t := y + "-" + m + "-" + dd;
    assert t[..4] == y && t[5..7] == m && t[8..] == dd;
  }

  lemma PaddedFields(yv: nat, mv: nat, dv: nat)
    requires yv < 10000 && mv < 100 && dv < 100
    ensures var ys := Text.PadLeft(Text.NatText(yv), 4, '0');
      |ys| == 4 && Text.AllDigits(ys) && Text.DigitsValue(ys) == yv
    ensures |TwoDigits(mv)| == 2 && Text.AllDigits(TwoDigits(mv)) && Text.DigitsValue(TwoDigits(mv)) == mv
    ensures |TwoDigits(dv)| == 2 && Text.AllDigits(TwoDigits(dv)) && Text.DigitsValue(TwoDigits(dv)) == dv
  {
    assert Text.Pow10(2) == 100 by { assert Text.Pow10(1) == 10; }
    assert Text.Pow10(4) == 10000 by { assert Text.Pow10(3) == 1000; }
    Text.PaddedNumber(yv, 4);
    Text.PaddedNumber(mv, 2);
    Text.PaddedNumber(dv, 2);
  }

  /** Without a sign, a year below 10000 gives ten characters yyyy-MM-dd whose
      fields read back as the year, month and day. */
  lemma FieldsTextReads(yv: nat, m: int, dd: int)
    requires yv < 10000 && 0 <= m < 100 && 0 <= dd < 100
    ensures var t := FieldsText("", yv, m, dd);
      |t| == 10 && t[4] == '-' && t[7] == '-'
      && Text.AllDigits(t[..4]) && Text.AllDigits(t[5..7]) && Text.AllDigits(t[8..])
      && Text.DigitsValue(t[..4]) == yv
      && Text.DigitsValue(t[5..7]) == m
      && Text.DigitsValue(t[8..]) == dd
  {
    var ys := Text.PadLeft(Text.NatText(yv), 4, '0');
    var ms := TwoDigits(m);
    var ds := TwoDigits(dd);
    PaddedFields(yv, m, dd);
    FieldsReadBack(FieldsText("", yv, m, dd), "", ys, ms, ds, yv, m, dd);
  }

  lemma FieldsReadBack(t: string, sign: string, ys: string, ms: string, ds: string, yv: nat, m: int, dd: int)
    requires sign == "" && t == sign + ys + "-" + ms + "-" + ds
    requires |ys| == 4 && |ms| == 2 && |ds| == 2
    requires Text.AllDigits(ys) && Text.AllDigits(ms) && Text.AllDigits(ds)
    requires Text.DigitsValue(ys) == yv && Text.DigitsValue(ms) == m && Text.DigitsValue(ds) == dd
    ensures |t| == 10 && t[4] == '-' && t[7] == '-'
      && Text.AllDigits(t[..4]) && Text.AllDigits(t[5..7]) && Text.AllDigits(t[8..])
      && Text.DigitsValue(t[..4]) == yv
      && Text.DigitsValue(t[5..7]) == m
      && Text.DigitsValue(t[8..]) == dd
  {
    assert sign + ys == ys;
    DateLayout(ys, ms, ds);
  }

  /** For years 1 to 9999 the pattern text is ten characters, yyyy-MM-dd, and
      its three fields read back as the year, month and day. */
  lemma PatternTextFields(d: Date)
    requires 1 <= d.year <= 9999
    ensures var t := PatternText(d);
      |t| == 10 && t[4] == '-' && t[7] == '-'
      && Text.AllDigits(t[..4]) && Text.AllDigits(t[5..7]) && Text.AllDigits(t[8..])
      && Text.DigitsValue(t[..4]) == d.year
      && Text.DigitsValue(t[5..7]) == d.month
      && Text.DigitsValue(t[8..]) == d.day
  {
    FieldsTextReads(d.year, d.month, d.day);
  }

  /** For years 0 to 9999 the ISO text has the same yyyy-MM-dd layout. */
  lemma IsoTextFields(d: Date)
    requires 0 <= d.year <= 9999
    ensures var t := IsoText(d);
      |t| == 10 && t[4] == '-' && t[7] == '-'
      && Text.AllDigits(t[..4]) && Text.AllDigits(t[5..7]) && Text.AllDigits(t[8..])
      && Text.DigitsValue(t[..4]) == d.year
      && Text.DigitsValue(t[5..7]) == d.month
      && Text.DigitsValue(t[8..]) == d.day
  {
    FieldsTextReads(d.year, d.month, d.day);
  }
}

=== FILE: excel.dfy ===
/**
 model.informe.Excel: the sheet of the workbook, named after the report's
 title, with a header row and one row per movement dated after the cutoff.
 */
module Excel {
  import Text
  import opened Util
  import opened Dates
  import opened Movimientos
  import opened Informe

  datatype Cell = TextCell(text: string) | NumericCell(value: real)

  /** A sheet: its name and its rows, row k at index k. */
  datatype Sheet = Sheet(name: string, rows: seq<seq<Cell>>)

  const HEADER_ROW := [TextCell("Fecha"), TextCell("Concepto"), TextCell("Cantidad")]

  /** The cells of one movement: LocalDate.toString(), the concept and the
      amount as a number. */
  function DataRow(m: Movimiento): seq<Cell>
  {
    [TextCell(IsoText(m.fecha)), TextCell(m.concepto), NumericCell(m.cantidad)]
  }

  /** One row per selected movement, in order. */
  function DataRows(sel: seq<Movimiento>): seq<seq<Cell>>
  {
    if sel == [] then [] else DataRows(sel[..|sel| - 1]) + [DataRow(sel[|sel| - 1])]
  }

  /** The rows the report holds for the selected movements: row 0 is the
      header and row k the k-th selected movement. */
  function SheetRows(sel: seq<Movimiento>): seq<seq<Cell>>
  {
    [HEADER_ROW] + DataRows(sel)
  }

  /** guardarArchivo: the sheet named `titulo`, the header row, then rows
      1, 2, ... for the movements dated after `limite`, in input order. */
  method GuardarArchivo(ms: seq<Movimiento>, limite: LocalDate, titulo: string) returns (sheet: Sheet)
    ensures sheet.name == titulo
    ensures sheet.rows == SheetRows(Selected(ms, limite))
  {
    var rows: seq<seq<Cell>> := [HEADER_ROW];
    var rowIndex := 1;
    ghost var done: seq<Movimiento> := [];
    var i := 0;
    while i < |ms|
      invariant 0 <= i <= |ms|
      invariant done == ms[..i]
      invariant rowIndex == |rows|
      invariant rows == SheetRows(Selected(done, limite))
    {
      AppendRowStep(rows, done, ms[i], limite);
      if IsAfter(ms[i].fecha, limite) {
        rows := rows + [DataRow(ms[i])];
        rowIndex := rowIndex + 1;
      }
      TakeSnoc(ms, i);
      done := done + [ms[i]];
      i := i + 1;
    }
    assert ms[..|ms|] == ms;
    sheet := Sheet(titulo, rows);
  }

  /** The loop step of guardarArchivo. */
  lemma AppendRowStep(rows: seq<seq<Cell>>, pre: seq<Movimiento>, m: Movimiento, limite: LocalDate)
    requires rows == SheetRows(Selected(pre, limite))
    ensures (if IsAfter(m.fecha, limite) then rows + [DataRow(m)] else rows)
            == SheetRows(Selected(pre + [m], limite))
  {
    RowsStep(pre, m, limite);
    if !IsAfter(m.fecha, limite) {
      assert rows + [] == rows;
    }
  }

  /** One more movement adds its row exactly when it is dated after the
      cutoff. */
  lemma RowsStep(pre: seq<Movimiento>, m: Movimiento, limite: LocalDate)
    ensures SheetRows(Selected(pre + [m], limite))
            == SheetRows(Selected(pre, limite)) + (if IsAfter(m.fecha, limite) then [DataRow(m)] else [])
  {
    var sel := Selected(pre, limite);
    SelectedConcat(pre, [m], limite);
    SelectedOne(m, limite);
    if IsAfter(m.fecha, limite) {
      assert (sel + [m])[..|sel + [m]| - 1] == sel;
      assert [HEADER_ROW] + (DataRows(sel) + [DataRow(m)]) == ([HEADER_ROW] + DataRows(sel)) + [DataRow(m)];
    } else {
      assert sel + [] == sel;
      assert SheetRows(sel) + [] == SheetRows(sel);
    }
  }

  /** guardarDatosMensuales: the sheet "Último Mes" from today minus one month. */
  method GuardarDatosMensuales(ms: seq<Movimiento>, today: Date) returns (sheet: Sheet)
    ensures sheet == Sheet("Último Mes", SheetRows(Selected(ms, MonthlyCutoff(today))))
  {
    sheet := GuardarArchivo(ms, MonthlyCutoff(today), "Último Mes");
  }

  /** guardarDatosAnuales: the sheet "Último Año" from today minus one year. */
  method GuardarDatosAnuales(ms: seq<Movimiento>, today: Date) returns (sheet: Sheet)
    ensures sheet == Sheet("Último Año", SheetRows(Selected(ms, YearlyCutoff(today))))
  {
    sheet := GuardarArchivo(ms, YearlyCutoff(today), "Último Año");
  }

  lemma {:induction false} DataRowsSpec(sel: seq<Movimiento>)
    ensures |DataRows(sel)| == |sel|
    ensures forall k :: 0 <= k < |sel| ==> DataRows(sel)[k] == DataRow(sel[k])
    decreases |sel|
  {
    if sel != [] {
      var init := sel[..|sel| - 1];
      DataRowsSpec(init);
      forall k | 0 <= k < |sel| ensures DataRows(sel)[k] == DataRow(sel[k]) {
        if k < |sel| - 1 {
          assert DataRows(sel)[k] == DataRows(init)[k];
          assert init[k] == sel[k];
        }
      }
    }
  }

  /** The sheet has the header plus one row per movement dated after the
      cutoff; row k holds the date text, the concept and the exact amount of
      the k-th of them, which is a movement of the list dated after the
      cutoff. */
  lemma SheetShape(ms: seq<Movimiento>, limite: LocalDate)
    ensures |SheetRows(Selected(ms, limite))| == 1 + CountAfter(ms, limite)
    ensures SheetRows(Selected(ms, limite))[0] == HEADER_ROW
    ensures |Selected(ms, limite)| == CountAfter(ms, limite)
    ensures forall k :: 1 <= k <= |Selected(ms, limite)| ==>
      var m := Selected(ms, limite)[k - 1];
      m in ms && IsAfter(m.fecha, limite)
      && SheetRows(Selected(ms, limite))[k] == [TextCell(IsoText(m.fecha)), TextCell(m.concepto), NumericCell(m.cantidad)]
  {
    var sel := Selected(ms, limite);
    SelectedCount(ms, limite);
    SelectedMembers(ms, limite);
    SheetRowsSpec(sel);
  }

  lemma SheetRowsSpec(sel: seq<Movimiento>)
    ensures |SheetRows(sel)| == |sel| + 1 && SheetRows(sel)[0] == HEADER_ROW
    ensures forall k :: 1 <= k <= |sel| ==> SheetRows(sel)[k] == DataRow(sel[k - 1])
  {
    DataRowsSpec(sel);
    forall k | 1 <= k <= |sel| ensures SheetRows(sel)[k] == DataRow(sel[k - 1]) {
      ConsIndex(HEADER_ROW, DataRows(sel), k);
    }
  }

  /** The spreadsheet and the CSV file write the same date text for years 1
      to 9999 (toString() and yyyy-MM-dd agree there); for year 0 they do
      not, because the pattern prints the year of the era. */
  lemma DateTextsAgree(d: Date)
    ensures 1 <= d.year <= 9999 ==> IsoText(d) == PatternText(d)
    ensures d.year == 0 ==> IsoText(d) != PatternText(d)
  {
    if d.year == 0 {
      IsoTextFields(d);
      PatternTextFields1(d);
    }
  }

  /** For year 0 the pattern text's year field reads 1. */
  lemma PatternTextFields1(d: Date)
    requires d.year == 0
    ensures var t := PatternText(d); |t| == 10 && Text.AllDigits(t[..4]) && Text.DigitsValue(t[..4]) == 1
  {
    FieldsTextReads(1, d.month, d.day);
  }
}

=== FILE: informe.dfy ===
/**
 The row selection the CSV and Excel reports share: the movements dated
 strictly after a cutoff, in the order of the list given to the report, and
 the two cutoffs of the monthly and yearly reports.
 */
module Informe {
  import opened Dates
  import opened Movimientos

  /** The movements with fecha.isAfter(limite), in input order. */
  function Selected(ms: seq<Movimiento>, limite: LocalDate): seq<Movimiento>
  {
    if ms == [] then []
    else
      var rest := Selected(ms[1..], limite);
      if IsAfter(ms[0].fecha, limite) then [ms[0]] + rest else rest
  }

  /** Every reported movement comes from the list and is dated after the
      cutoff, and every movement of the list dated after it is reported. */
  lemma {:induction false} SelectedMembers(ms: seq<Movimiento>, limite: LocalDate)
    ensures |Selected(ms, limite)| <= |ms|
    ensures forall i :: 0 <= i < |Selected(ms, limite)| ==>
              Selected(ms, limite)[i] in ms && IsAfter(Selected(ms, limite)[i].fecha, limite)
    ensures forall m :: m in ms && IsAfter(m.fecha, limite) ==> m in Selected(ms, limite)
    decreases |ms|
  {
    if ms != [] {
      SelectedMembers(ms[1..], limite);
      var rest := Selected(ms[1..], limite);
      var r := Selected(ms, limite);
      forall i | 0 <= i < |r| ensures r[i] in ms && IsAfter(r[i].fecha, limite) {
        if IsAfter(ms[0].fecha, limite) && i > 0 {
          assert r[i] == rest[i - 1];
        }
      }
      forall m | m in ms && IsAfter(m.fecha, limite) ensures m in r {
        if m != ms[0] {
          assert m in ms[1..];
        }
      }
    }
  }

  /** Selection works piece by piece: the rows of a list are the rows of its
      first part followed by the rows of its second, so input order is kept. */
  lemma {:induction false} SelectedConcat(a: seq<Movimiento>, b: seq<Movimiento>, limite: LocalDate)
    ensures Selected(a + b, limite) == Selected(a, limite) + Selected(b, limite)
    decreases |a|
  {
    if a == [] {
      assert a + b == b;
    } else {
      assert (a + b)[1..] == a[1..] + b;
      SelectedConcat(a[1..], b, limite);
    }
  }

  /** A single movement is kept exactly when it is dated after the cutoff. */
  lemma SelectedOne(m: Movimiento, limite: LocalDate)
    ensures Selected([m], limite) == if IsAfter(m.fecha, limite) then [m] else []
  {
    assert [m][1..] == [];
  }

  /** A movement dated on the cutoff day itself is never reported. */
  lemma SameDayExcluded(ms: seq<Movimiento>, limite: LocalDate)
    ensures forall i :: 0 <= i < |Selected(ms, limite)| ==> Selected(ms, limite)[i].fecha != limite
  {
    SelectedMembers(ms, limite);
  }

  /** The number of movements dated after the cutoff. */
  function CountAfter(ms: seq<Movimiento>, limite: LocalDate): nat
  {
    if ms == [] then 0 else (if IsAfter(ms[0].fecha, limite) then 1 else 0) + CountAfter(ms[1..], limite)
  }

  lemma {:induction false} SelectedCount(ms: seq<Movimiento>, limite: LocalDate)
    ensures |Selected(ms, limite)| == CountAfter(ms, limite)
    decreases |ms|
  {
    if ms != [] {
      SelectedCount(ms[1..], limite);
    }
  }

  /** The monthly report's cutoff: today minus one month. */
  function MonthlyCutoff(today: Date): Date
  {
    MinusOneMonth(today)
  }

  /** The yearly report's cutoff: today minus one year. */
  function YearlyCutoff(today: Date): Date
  {
    MinusOneYear(today)
  }

  /** The yearly cutoff is strictly before the monthly one. */
  lemma CutoffsOrdered(today: Date)
    ensures IsAfter(MonthlyCutoff(today), YearlyCutoff(today))
  {
    var mc := MonthlyCutoff(today);
    var yc := YearlyCutoff(today);
    assert EpochDay(mc) > EpochDay(yc);
    EpochDayAfter(mc, yc);
  }

  /** After a later cutoff implies after an earlier one. */
  lemma AfterLaterCutoff(d: Date, early: Date, late: Date)
    requires IsAfter(late, early) && IsAfter(d, late)
    ensures IsAfter(d, early)
  {
    EpochDayAfter(late, early);
    EpochDayAfter(d, late);
    EpochDayAfter(d, early);
  }

  /** The monthly rows are exactly the monthly selection of the yearly rows:
      every movement of the monthly report is also in the yearly one, in the
      same relative order. */
  lemma {:induction false} MonthlyWithinYearly(ms: seq<Movimiento>, today: Date)
    ensures Selected(ms, MonthlyCutoff(today))
            == Selected(Selected(ms, YearlyCutoff(today)), MonthlyCutoff(today))
    decreases |ms|
  {
    if ms != [] {
      MonthlyWithinYearly(ms[1..], today);
      CutoffsOrdered(today);
      var y := Selected(ms[1..], YearlyCutoff(today));
      if IsAfter(ms[0].fecha, MonthlyCutoff(today)) {
        AfterLaterCutoff(ms[0].fecha, YearlyCutoff(today), MonthlyCutoff(today));
        assert ([ms[0]] + y)[1..] == y;
      } else if IsAfter(ms[0].fecha, YearlyCutoff(today)) {
        assert ([ms[0]] + y)[1..] == y;
      }
    }
  }
}

=== FILE: movimiento.dfy ===
/** The ledger entry, model.Movimiento. */
module Movimientos {
  import opened Dates

  /** One movement: store-assigned id (0 before it is stored), concept text,
      signed amount (positive income, negative expense) and calendar date. */
  datatype Movimiento = Movimiento(id: int, concepto: string, cantidad: real, fecha: Date)
  {
    function GetId(): int { id }
    function GetConcepto(): string { concepto }
    function GetCantidad(): real { cantidad }
    function GetFecha(): Date { fecha }

    function SetId(v: int): (r: Movimiento)
      ensures r.GetId() == v
      ensures r.GetConcepto() == GetConcepto() && r.GetCantidad() == GetCantidad() && r.GetFecha() == GetFecha()
    {
      this.(id := v)
    }

    function SetConcepto(v: string): (r: Movimiento)
      ensures r.GetConcepto() == v
      ensures r.GetId() == GetId() && r.GetCantidad() == GetCantidad() && r.GetFecha() == GetFecha()
    {
      this.(concepto := v)
    }

    function SetCantidad(v: real): (r: Movimiento)
      ensures r.GetCantidad() == v
      ensures r.GetId() == GetId() && r.GetConcepto() == GetConcepto() && r.GetFecha() == GetFecha()
    {
      this.(cantidad := v)
    }

    function SetFecha(v: Date): (r: Movimiento)
      ensures r.GetFecha() == v
      ensures r.GetId() == GetId() && r.GetConcepto() == GetConcepto() && r.GetCantidad() == GetCantidad()
    {
      this.(fecha := v)
    }

    /** fechaToDate().getTime(): midnight of the date, built through the
        calendar's 0-based month (month value - 1). The instant is a whole
        number of days, and it is non-negative exactly from 1970 on. */
    function FechaToDate(): (ms: int)
      ensures ms % MILLIS_PER_DAY == 0
      ensures ms >= 0 <==> fecha.year >= EPOCH_YEAR
    {
      MillisNonNegative(fecha);
      CalendarMillis(fecha.year, fecha.month - 1, fecha.day)
    }
  }

  /** new Movimiento(id, concepto, cantidad, fecha): every getter returns the
      argument it was built from. */
  function New(id: int, concepto: string, cantidad: real, fecha: Date): (m: Movimiento)
    ensures m.GetId() == id && m.GetConcepto() == concepto
    ensures m.GetCantidad() == cantidad && m.GetFecha() == fecha
  {
    Movimiento(id, concepto, cantidad, fecha)
  }

  /** Setting a field and reading it back gives the value set; setting one
      field and then another in either order gives the same record. */
  lemma SettersCommute(m: Movimiento, i: int, c: string, q: real, f: Date)
    ensures m.SetId(i).SetConcepto(c) == m.SetConcepto(c).SetId(i)
    ensures m.SetCantidad(q).SetFecha(f) == m.SetFecha(f).SetCantidad(q)
    ensures m.SetId(m.GetId()) == m && m.SetFecha(m.GetFecha()) == m
  {
  }
}

=== FILE: text.dfy ===
/**
 The java.lang.String and java.util.Formatter behaviour the ledger relies on:
 decimal digits, zero padding, `trim`, `indexOf`/`lastIndexOf` of one
 character, `replace(target, "")`, and the `%.2f` conversion of an amount.
 */
module Text {

  predicate IsDigit(c: char) { '0' <= c <= '9' }

  predicate AllDigits(s: string) { forall i :: 0 <= i < |s| ==> IsDigit(s[i]) }

  function DigitChar(n: int): (c: char)
    requires 0 <= n < 10
    ensures IsDigit(c) && c as int - '0' as int == n
  {
    ('0' as int + n) as char
  }

  /** Decimal digits of a natural number, most significant first, no leading zeros. */
  function NatText(n: nat): string
    decreases n
  {
    if n < 10 then [DigitChar(n)] else NatText(n / 10) + [DigitChar(n % 10)]
  }

  /** The number an all-digit string denotes (the inverse of `NatText`). */
  function DigitsValue(s: string): nat
    requires AllDigits(s)
  {
    if |s| == 0 then 0
    else DigitsValue(s[..|s| - 1]) * 10 + (s[|s| - 1] as int - '0' as int)
  }

  function Pow10(w: nat): nat
  {
    if w == 0 then 1 else 10 * Pow10(w - 1)
  }

  /** Printing a number and reading it back gives the number again. */
  lemma {:induction false} NatTextRoundTrip(n: nat)
    ensures |NatText(n)| >= 1 && AllDigits(NatText(n))
    ensures DigitsValue(NatText(n)) == n
    decreases n
  {
    if n >= 10 {
      NatTextRoundTrip(n / 10);
      var t := NatText(n / 10) + [DigitChar(n % 10)];
      assert t[..|t| - 1] == NatText(n / 10);
    }
  }

  /** A number below 10^w prints with at most w digits. */
  lemma {:induction false} NatTextShort(n: nat, w: nat)
    requires w >= 1 && n < Pow10(w)
    ensures |NatText(n)| <= w
    decreases n
  {
    if n >= 10 {
      assert w >= 2;
      NatTextShort(n / 10, w - 1);
    }
  }

  /** Left padding with `c` up to `width` characters; a longer `s` is kept whole. */
  function PadLeft(s: string, width: nat, c: char): (r: string)
    ensures |r| == if |s| >= width then |s| else width
    ensures r[|r| - |s|..] == s
    ensures forall i :: 0 <= i < |r| - |s| ==> r[i] == c
    decreases width
  {
    if |s| >= width then s else [c] + PadLeft(s, width - 1, c)
  }

  /** Leading zeros do not change the number a digit string denotes. */
  lemma {:induction false} LeadingZeros(z: string, s: string)
    requires forall i :: 0 <= i < |z| ==> z[i] == '0'
    requires AllDigits(s)
    ensures AllDigits(z + s) && DigitsValue(z + s) == DigitsValue(s)
    decreases |s|
  {
    if |s| == 0 {
      ZerosValue(z);
      assert z + s == z;
    } else {
      var t := z + s;
      assert t[..|t| - 1] == z + s[..|s| - 1];
      LeadingZeros(z, s[..|s| - 1]);
    }
  }

  lemma {:induction false} ZerosValue(z: string)
    requires forall i :: 0 <= i < |z| ==> z[i] == '0'
    ensures AllDigits(z) && DigitsValue(z) == 0
    decreases |z|
  {
    if |z| > 0 {
      ZerosValue(z[..|z| - 1]);
    }
  }

  /** A zero-padded number reads back as the number, at exactly the padded width. */
  lemma PaddedNumber(n: nat, w: nat)
    requires w >= 1 && n < Pow10(w)
    ensures |PadLeft(NatText(n), w, '0')| == w
    ensures AllDigits(PadLeft(NatText(n), w, '0'))
    ensures DigitsValue(PadLeft(NatText(n), w, '0')) == n
  {
    var t := NatText(n);
    NatTextRoundTrip(n);
    NatTextShort(n, w);
    ZeroPadded(PadLeft(t, w, '0'), t);
  }

  /** Digits preceded by zeros denote the same number. */
  lemma ZeroPadded(p: string, t: string)
    requires |p| >= |t| && p[|p| - |t|..] == t && AllDigits(t)
    requires forall i :: 0 <= i < |p| - |t| ==> p[i] == '0'
    ensures AllDigits(p) && DigitsValue(p) == DigitsValue(t)
  {
    var z := p[..|p| - |t|];
    assert p == z + t;
    LeadingZeros(z, t);
  }

  // ---------------------------------------------------------------------
  // String.trim: strips every leading and trailing character <= U+0020.

  predicate IsTrimmed(c: char) { c <= ' ' }

  /** Index of the first kept character at or after `i` (|s| if none). */
  function TrimStart(s: string, i: nat): (r: nat)
    requires i <= |s|
    ensures i <= r <= |s|
    ensures forall k :: i <= k < r ==> IsTrimmed(s[k])
    ensures r < |s| ==> !IsTrimmed(s[r])
    decreases |s| - i
  {
    if i == |s| || !IsTrimmed(s[i]) then i else TrimStart(s, i + 1)
  }

  /** End (exclusive) of the kept part, scanning back from `j` but not below `lo`. */
  function TrimEnd(s: string, lo: nat, j: nat): (r: nat)
    requires lo <= j <= |s|
    ensures lo <= r <= j
    ensures forall k :: r <= k < j ==> IsTrimmed(s[k])
    ensures r > lo ==> !IsTrimmed(s[r - 1])
    decreases j
  {
    if j == lo || !IsTrimmed(s[j - 1]) then j else TrimEnd(s, lo, j - 1)
  }

  function Trim(s: string): (r: string)
    ensures |r| <= |s|
  {
    var a := TrimStart(s, 0);
    s[a..TrimEnd(s, a, |s|)]
  }

  /** `trim` removes exactly the padding: what is left is a slice of the input
      whose ends are not padding, and everything cut away is padding. */
  lemma TrimCharacterisation(s: string)
    ensures exists a, b ::
              (0 <= a <= b <= |s| && Trim(s) == s[a..b]
               && (forall k :: 0 <= k < a ==> IsTrimmed(s[k]))
               && (forall k :: b <= k < |s| ==> IsTrimmed(s[k]))
               && (a < b ==> !IsTrimmed(s[a]) && !IsTrimmed(s[b - 1])))
  {
    var a := TrimStart(s, 0);
    var b := TrimEnd(s, a, |s|);
    assert Trim(s) == s[a..b];
  }

  /** Trimming twice is trimming once. */
  lemma TrimIdempotent(s: string)
    ensures Trim(Trim(s)) == Trim(s)
  {
    var t := Trim(s);
    if |t| > 0 {
      assert !IsTrimmed(t[0]) && !IsTrimmed(t[|t| - 1]);
      assert TrimStart(t, 0) == 0;
      assert TrimEnd(t, 0, |t|) == |t|;
    } else {
      assert TrimStart(t, 0) == 0;
    }
  }

  // ---------------------------------------------------------------------
  // String.lastIndexOf(c, from) and String.indexOf(c, from) for one character.

  function LastFrom(s: string, c: char, i: int): (r: int)
    requires -1 <= i < |s|
    ensures -1 <= r <= i
    ensures r >= 0 ==> s[r] == c
    ensures forall k :: r < k <= i ==> s[k] != c
    decreases i + 1
  {
    if i < 0 then -1 else if s[i] == c then i else LastFrom(s, c, i - 1)
  }

  /** The largest index at or before `from` holding `c`, or -1. */
  function LastIndexOf(s: string, c: char, from: int): (r: int)
    ensures -1 <= r < |s|
    ensures r >= 0 ==> r <= from && s[r] == c
    ensures forall k :: r < k < |s| && k <= from ==> s[k] != c
  {
    LastFrom(s, c, if from < |s| - 1 then (if from < -1 then -1 else from) else |s| - 1)
  }

  function FirstFrom(s: string, c: char, i: nat): (r: int)
    requires i <= |s|
    ensures r == -1 || (i <= r < |s| && s[r] == c)
    ensures forall k :: i <= k < |s| && (r == -1 || k < r) ==> s[k] != c
    decreases |s| - i
  {
    if i == |s| then -1 else if s[i] == c then i else FirstFrom(s, c, i + 1)
  }

  /** The smallest index at or after `from` holding `c`, or -1. */
  function IndexOf(s: string, c: char, from: int): (r: int)
    ensures r == -1 || (0 <= r < |s| && r >= from && s[r] == c)
    ensures forall k :: 0 <= k < |s| && k >= from && (r == -1 || k < r) ==> s[k] != c
  {
    if from >= |s| then -1 else FirstFrom(s, c, if from < 0 then 0 else from)
  }

  // ---------------------------------------------------------------------
  // String.replace(pat, ""): every occurrence found by a left-to-right scan
  // of the original string is removed; removed text is not rescanned.

  function RemoveAll(s: string, pat: string): (r: string)
    requires |pat| > 0
    ensures |r| <= |s|
    decreases |s|
  {
    if |s| < |pat| then s
    else if s[..|pat|] == pat then RemoveAll(s[|pat|..], pat)
    else [s[0]] + RemoveAll(s[1..], pat)
  }

  lemma RemoveAllLeading(s: string, pat: string)
    requires |pat| > 0
    ensures RemoveAll(pat + s, pat) == RemoveAll(s, pat)
  {
    assert (pat + s)[..|pat|] == pat;
    assert (pat + s)[|pat|..] == s;
  }

  /** Text free of the pattern's first character passes through unchanged. */
  lemma {:induction false} RemoveAllKeeps(x: string, y: string, pat: string)
    requires |pat| > 0
    requires forall i :: 0 <= i < |x| ==> x[i] != pat[0]
    ensures RemoveAll(x + y, pat) == x + RemoveAll(y, pat)
    decreases |x|
  {
    if |x| > 0 {
      var s := x + y;
      if |s| < |pat| {
        assert RemoveAll(y, pat) == y;
      } else {
        assert s[..|pat|][0] == x[0];
        assert s[1..] == x[1..] + y;
        RemoveAllKeeps(x[1..], y, pat);
        assert [x[0]] + x[1..] == x;
      }
    } else {
      assert x + y == y;
    }
  }

  // ---------------------------------------------------------------------
  // String.format("%.2f", x), with '.' as the decimal separator.

  function Abs(x: real): real { if x < 0.0 then -x else x }

  /** |x| in hundredths, rounded half up (java.math.RoundingMode.HALF_UP). */
  function RoundedCents(x: real): (c: nat)
    ensures c as real - 0.5 <= Abs(x) * 100.0 < c as real + 0.5
  {
    (Abs(x) * 100.0 + 0.5).Floor
  }

  function Fixed2(x: real): string
  {
    CentsText(x < 0.0, RoundedCents(x))
  }

  /** Sign, whole units and two-digit hundredths of a count of cents. */
  function CentsText(negative: bool, c: nat): string
  {
    MinusSign(negative) + NatText(c / 100) + "." + PadLeft(NatText(c % 100), 2, '0')
  }

  function MinusSign(negative: bool): string
  {
    if negative then "-" else ""
  }

  /** Layout of sign, integer digits, point and two fraction digits. */
  lemma FixedLayout(sign: string, ip: string, fp: string)
    requires |sign| <= 1 && |ip| >= 1 && |fp| == 2
    ensures var t := sign + ip + "." + fp;
      |t| == |sign| + |ip| + 3 && t[|sign|..|t| - 3] == ip && t[|t| - 2..] == fp
      && t[|t| - 3] == '.' && (|sign| == 1 ==> t[0] == sign[0]) && (|sign| == 0 ==> t[0] == ip[0])
  {
  }

  /** The pieces of a count of cents: digits of the units and two digits of
      the hundredths that together read back as the count. */
  lemma CentsPieces(c: nat)
    ensures var ip := NatText(c / 100); var fp := PadLeft(NatText(c % 100), 2, '0');
      |ip| >= 1 && AllDigits(ip) && IsDigit(ip[0]) && |fp| == 2 && AllDigits(fp)
      && DigitsValue(ip) * 100 + DigitsValue(fp) == c
  {
    NatTextRoundTrip(c / 100);
    assert Pow10(2) == 100 by { assert Pow10(1) == 10; }
    PaddedNumber(c % 100, 2);
  }

  /** The layout of a two-decimal text: a minus sign exactly when
      `negative`, integer digits, a point and two fraction digits, the
      digits reading back as `c` hundredths. */
  predicate ReadsAsCents(t: string, negative: bool, c: nat)
  {
    var s := if negative then 1 else 0;
    && |t| >= s + 4 && (negative <==> t[0] == '-') && t[|t| - 3] == '.'
    && AllDigits(t[s..|t| - 3]) && AllDigits(t[|t| - 2..])
    && DigitsValue(t[s..|t| - 3]) * 100 + DigitsValue(t[|t| - 2..]) == c
  }

  lemma CentsTextReads(negative: bool, c: nat)
    ensures ReadsAsCents(CentsText(negative, c), negative, c)
  {
    var sign := MinusSign(negative);
    var ip := NatText(c / 100);
    var fp := PadLeft(NatText(c % 100), 2, '0');
    CentsPieces(c);
    FixedLayout(sign, ip, fp);
    var t := sign + ip + "." + fp;
    assert t == CentsText(negative, c);
    assert |sign| == (if negative then 1 else 0);
    assert t[|sign|..|t| - 3] == ip && t[|t| - 2..] == fp;
  }

  /** The `%.2f` text is: an optional minus sign exactly when x is negative,
      integer digits, a point, two digits; and the digits read back as the
      rounded number of hundredths. */
  lemma Fixed2Reads(x: real)
    ensures ReadsAsCents(Fixed2(x), x < 0.0, RoundedCents(x))
  {
    var neg := x < 0.0;
    var c := RoundedCents(x);
    CentsTextReads(neg, c);
    assert Fixed2(x) == CentsText(neg, c);
  }
}

=== FILE: util.dfy ===
/** Small shared vocabulary: the Java `null` of a lookup becomes `None`. */
module Util {

  datatype Option<+T> = None | Some(value: T)

  function Min(a: int, b: int): int { if a <= b then a else b }

  function Max(a: int, b: int): int { if a >= b then a else b }

  /** Extending a prefix by the next element. */
  lemma TakeSnoc<T>(s: seq<T>, i: nat)
    requires i < |s|
    ensures s[..i + 1] == s[..i] + [s[i]]
  {
  }

  /** Indexing past a one-element head. */
  lemma ConsIndex<T>(x: T, s: seq<T>, k: nat)
    requires 1 <= k <= |s|
    ensures ([x] + s)[k] == s[k - 1]
  {
  }
}

=== FILE: view.dfy ===
/**
 view.MovimientoView, reduced to the state the controller and the keyboard
 act on: the movement panels and the selected index, the balance text and the
 banner colour, the three filter labels, and the view's copy of the help-mode
 flag and step. Swing layout, dialogs and painting are not part of this model.
 */
module View {
  import opened Util
  import opened Text
  import opened Dates
  import opened Movimientos

  // ---------------------------------------------------------------------
  // Movement panels and the selection cursor.

  /** One MovimientoPanel: the movement id its delete button acts on, and the
      three texts it shows. */
  datatype Panel = Panel(id: int, concepto: string, fechaText: string, cantidadText: string)

  function PanelOf(m: Movimiento): (p: Panel)
    ensures p.id == m.id && p.concepto == m.concepto
    ensures p.fechaText == IsoText(m.fecha) && p.cantidadText == Fixed2(m.cantidad)
  {
    Panel(m.id, m.concepto, IsoText(m.fecha), Fixed2(m.cantidad))
  }

  /** The three filter labels, with their current text. */
  datatype Labels = Labels(mes: string, anio: string, total: string)

  /** Which filter label a highlight selects. */
  datatype FilterLabel = MesLabel | AnioLabel | TotalLabel

  datatype View = View(
    panels: seq<Panel>,
    selected: int,
    balanceText: string,
    colour: string,
    labels: Labels,
    inHelpMode: bool,
    helpStep: int,
    helpText: (string, string))

  /** The selection is "none" (-1) or the index of a panel. */
  predicate SelectionInRange(v: View)
  {
    -1 <= v.selected < |v.panels|
  }

  /** moveSelectionUp: from no selection to the LAST panel, otherwise one up,
      stopping at the first panel; nothing at all when there are no panels. */
  function MoveSelectionUp(v: View): (r: View)
    ensures r.(selected := v.selected) == v
    ensures SelectionInRange(v) ==> SelectionInRange(r)
    ensures |v.panels| == 0 ==> r == v
    ensures |v.panels| > 0 && v.selected == -1 ==> r.selected == |v.panels| - 1
    ensures |v.panels| > 0 && v.selected > 0 ==> r.selected == v.selected - 1
    ensures v.selected == 0 ==> r == v
  {
    if |v.panels| == 0 then v
    else if v.selected == -1 then v.(selected := |v.panels| - 1)
    else if v.selected > 0 then v.(selected := v.selected - 1)
    else v
  }

  /** moveSelectionDown: from no selection to the first panel, otherwise one
      down, stopping at the last panel; nothing when there are no panels. */
  function MoveSelectionDown(v: View): (r: View)
    ensures r.(selected := v.selected) == v
    ensures SelectionInRange(v) ==> SelectionInRange(r)
    ensures |v.panels| == 0 ==> r == v
    ensures |v.panels| > 0 && v.selected == -1 ==> r.selected == 0
    ensures 0 <= v.selected < |v.panels| - 1 ==> r.selected == v.selected + 1
    ensures v.selected == |v.panels| - 1 ==> r == v
  {
    if |v.panels| == 0 then v
    else if v.selected == -1 then v.(selected := 0)
    else if v.selected < |v.panels| - 1 then v.(selected := v.selected + 1)
    else v
  }

  /** Inside the list, a step down undoes a step up and vice versa. */
  lemma UpDownInverse(v: View)
    requires 0 <= v.selected < |v.panels|
    ensures v.selected > 0 ==> MoveSelectionDown(MoveSelectionUp(v)) == v
    ensures v.selected < |v.panels| - 1 ==> MoveSelectionUp(MoveSelectionDown(v)) == v
  {
  }

  function DownTimes(v: View, k: nat): View
  {
    if k == 0 then v else MoveSelectionDown(DownTimes(v, k - 1))
  }

  /** Pressing Down k times from no selection selects panel k - 1, and stays
      on the last panel once it is reached. */
  lemma {:induction false} DownFromNone(v: View, k: nat)
    requires v.selected == -1 && |v.panels| > 0 && k >= 1
    ensures DownTimes(v, k).selected == Min(k - 1, |v.panels| - 1)
    ensures DownTimes(v, k).panels == v.panels
  {
    if k > 1 {
      DownFromNone(v, k - 1);
    }
  }

  /** setMovements: one panel per movement, in the given order; the
      selection is cleared. */
  function SetMovements(v: View, ms: seq<Movimiento>): (r: View)
    ensures |r.panels| == |ms|
    ensures forall i :: 0 <= i < |ms| ==> r.panels[i] == PanelOf(ms[i])
    ensures r.selected == -1 && SelectionInRange(r)
    ensures r.(panels := v.panels, selected := v.selected) == v
  {
    v.(panels := seq(|ms|, i requires 0 <= i < |ms| => PanelOf(ms[i])), selected := -1)
  }

  /** deleteSelectedMovement: the id whose delete button is pressed, which
      exists only when the selection is a panel index. */
  function DeleteTarget(v: View): (r: Option<int>)
    ensures r.Some? <==> 0 <= v.selected < |v.panels|
    ensures r.Some? ==> r.value == v.panels[v.selected].id
  {
    if v.selected >= 0 && v.selected < |v.panels| then Some(v.panels[v.selected].id) else None
  }

  /** Right after new movements are shown, the delete key does nothing; after
      a first Down on a non-empty list it targets the first movement. */
  lemma DeleteNeedsSelection(v: View, ms: seq<Movimiento>)
    ensures DeleteTarget(SetMovements(v, ms)) == None
    ensures |ms| > 0 ==> DeleteTarget(MoveSelectionDown(SetMovements(v, ms))) == Some(ms[0].id)
    ensures |ms| > 0 ==> DeleteTarget(MoveSelectionUp(SetMovements(v, ms))) == Some(ms[|ms| - 1].id)
  {
    var w := SetMovements(v, ms);
    if |ms| > 0 {
      var n := |ms|;
      assert w.panels[0] == PanelOf(ms[0]);
      assert w.panels[n - 1] == PanelOf(ms[n - 1]);
      assert MoveSelectionDown(w).selected == 0;
      assert MoveSelectionUp(w).selected == n - 1;
    }
  }

  // ---------------------------------------------------------------------
  // Filter label highlighting.

  const OPEN := "<html><u>"
  const CLOSE := "</u></html>"
  const MES_TEXT := "MES"
  const ANIO_TEXT := "AÑO"
  const TOTAL_TEXT := "TOTAL"

  /** The text a label was created with. */
  function Name(l: FilterLabel): string
  {
    match l
    case MesLabel => MES_TEXT
    case AnioLabel => ANIO_TEXT
    case TotalLabel => TOTAL_TEXT
  }

  function Get(ls: Labels, l: FilterLabel): string
  {
    match l
    case MesLabel => ls.mes
    case AnioLabel => ls.anio
    case TotalLabel => ls.total
  }

  function Put(ls: Labels, l: FilterLabel, s: string): (r: Labels)
    ensures Get(r, l) == s
    ensures forall o :: o != l ==> Get(r, o) == Get(ls, o)
  {
    match l
    case MesLabel => ls.(mes := s)
    case AnioLabel => ls.(anio := s)
    case TotalLabel => ls.(total := s)
  }

  /** text.replace(OPEN, "").replace(CLOSE, "") */
  function Strip(s: string): string
  {
    RemoveAll(RemoveAll(s, OPEN), CLOSE)
  }

  function Repeat(s: string, k: nat): (r: string)
    ensures |r| == k * |s|
  {
    if k == 0 then "" else s + Repeat(s, k - 1)
  }

  /** A name wrapped k times in the underline markers. */
  function Wrapped(name: string, k: nat): string
  {
    Repeat(OPEN, k) + name + Repeat(CLOSE, k)
  }

  /** highlightSelectedFilter: the selected label gains one more pair of
      markers; every other label loses all of them. */
  function Highlight(ls: Labels, sel: FilterLabel): (r: Labels)
    ensures Get(r, sel) == OPEN + Get(ls, sel) + CLOSE
    ensures forall o :: o != sel ==> Get(r, o) == Strip(Get(ls, o))
  {
    var s := Put(ls, sel, OPEN + Get(ls, sel) + CLOSE);
    var others := if sel == MesLabel then [AnioLabel, TotalLabel]
                  else if sel == AnioLabel then [MesLabel, TotalLabel]
                  else [MesLabel, AnioLabel];
    Put(Put(s, others[0], Strip(Get(s, others[0]))), others[1], Strip(Get(s, others[1])))
  }

  /** What the filter row shows while `sel` is the current filter: that label
      wrapped at least once, the other two plain. */
  ghost predicate Shows(ls: Labels, sel: FilterLabel)
  {
    && (exists k: nat :: k >= 1 && Get(ls, sel) == Wrapped(Name(sel), k))
    && forall o :: o != sel ==> Get(ls, o) == Name(o)
  }

  predicate NoMarkerStart(s: string)
  {
    forall i :: 0 <= i < |s| ==> s[i] != '<'
  }

  lemma OneMoreWrap(name: string, k: nat)
    ensures OPEN + Wrapped(name, k) + CLOSE == Wrapped(name, k + 1)
  {
    assert Repeat(OPEN, k + 1) == OPEN + Repeat(OPEN, k);
    RepeatSnoc(CLOSE, k);
  }

  lemma {:induction false} RepeatSnoc(s: string, k: nat)
    ensures Repeat(s, k) + s == Repeat(s, k + 1)
  {
    if k > 0 {
      RepeatSnoc(s, k - 1);
      assert Repeat(s, k) + s == s + (Repeat(s, k - 1) + s);
    }
  }

  /** A tag that starts like the pattern but differs from it in its second
      character, and does not repeat the pattern's first character, passes
      through unchanged. */
  lemma TagKeeps(tag: string, y: string, pat: string)
    requires |pat| >= 2 && |tag| >= 2 && tag[1] != pat[1]
    requires forall i :: 1 <= i < |tag| ==> tag[i] != pat[0]
    ensures RemoveAll(tag + y, pat) == tag + RemoveAll(y, pat)
  {
    var s := tag + y;
    var rest := tag[1..];
    if |s| >= |pat| {
      assert s[..|pat|][1] == tag[1];
    }
    assert s[1..] == rest + y;
    RemoveAllKeeps(rest, y, pat);
    assert [tag[0]] + (rest + RemoveAll(y, pat)) == tag + RemoveAll(y, pat);
  }

  /** Two such tags in a row pass through unchanged. */
  lemma TagsKeep(u: string, h: string, y: string, pat: string)
    requires |pat| >= 2 && |u| >= 2 && u[1] != pat[1] && |h| >= 2 && h[1] != pat[1]
    requires forall i :: 1 <= i < |u| ==> u[i] != pat[0]
    requires forall i :: 1 <= i < |h| ==> h[i] != pat[0]
    ensures RemoveAll(u + h + y, pat) == u + h + RemoveAll(y, pat)
  {
    TagKeeps(h, y, pat);
    TagKeeps(u, h + y, pat);
    assert u + h + y == u + (h + y);
  }

  /** The closing marker contains no opening marker. */
  lemma CloseKeeps(y: string)
    ensures RemoveAll(CLOSE + y, OPEN) == CLOSE + RemoveAll(y, OPEN)
  {
    TagsKeep("</u>", "</html>", y, OPEN);
    assert CLOSE == "</u>" + "</html>";
  }

  lemma {:induction false} ClosesKeep(k: nat)
    ensures RemoveAll(Repeat(CLOSE, k), OPEN) == Repeat(CLOSE, k)
  {
    if k > 0 {
      ClosesKeep(k - 1);
      CloseKeeps(Repeat(CLOSE, k - 1));
    }
  }

  lemma {:induction false} LeadingRepeats(pat: string, k: nat, y: string)
    requires |pat| > 0
    ensures RemoveAll(Repeat(pat, k) + y, pat) == RemoveAll(y, pat)
  {
    if k > 0 {
      assert Repeat(pat, k) + y == pat + (Repeat(pat, k - 1) + y);
      RemoveAllLeading(Repeat(pat, k - 1) + y, pat);
      LeadingRepeats(pat, k - 1, y);
    } else {
      assert Repeat(pat, k) + y == y;
    }
  }

  /** Stripping undoes any number of wraps of a marker-free name. */
  lemma StripWrapped(name: string, k: nat)
    requires NoMarkerStart(name)
    ensures Strip(Wrapped(name, k)) == name
  {
    var w := Wrapped(name, k);
    assert w == Repeat(OPEN, k) + (name + Repeat(CLOSE, k));
    LeadingRepeats(OPEN, k, name + Repeat(CLOSE, k));
    RemoveAllKeeps(name, Repeat(CLOSE, k), OPEN);
    ClosesKeep(k);
    assert RemoveAll(w, OPEN) == name + Repeat(CLOSE, k);
    RemoveAllKeeps(name, Repeat(CLOSE, k), CLOSE);
    LeadingRepeats(CLOSE, k, "");
    assert Repeat(CLOSE, k) + "" == Repeat(CLOSE, k);
    assert RemoveAll("", CLOSE) == "";
    assert name + "" == name;
  }

  /** Every label showing its plain name. */
  predicate Plain(ls: Labels)
  {
    forall o :: Get(ls, o) == Name(o)
  }

  lemma NamesUnmarked(l: FilterLabel)
    ensures NoMarkerStart(Name(l))
  {
  }

  /** `sel` wrapped exactly k times, the other labels plain. */
  predicate WrappedAt(ls: Labels, sel: FilterLabel, k: nat)
  {
    && Get(ls, sel) == Wrapped(Name(sel), k)
    && forall o :: o != sel ==> Get(ls, o) == Name(o)
  }

  lemma WrapZero(name: string)
    ensures Wrapped(name, 0) == name
  {
    assert Repeat(OPEN, 0) + name + Repeat(CLOSE, 0) == name;
  }

  lemma StripPlain(ls: Labels, prev: FilterLabel, k: nat, o: FilterLabel)
    requires WrappedAt(ls, prev, k)
    ensures Strip(Get(ls, o)) == Name(o)
  {
    NamesUnmarked(o);
    if o == prev {
      StripWrapped(Name(o), k);
    } else {
      WrapZero(Name(o));
      StripWrapped(Name(o), 0);
    }
  }

  /** Highlighting adds one wrap to a label already highlighted, and gives a
      newly selected label its first wrap; the others end up plain. */
  lemma HighlightWrapped(ls: Labels, prev: FilterLabel, k: nat, sel: FilterLabel)
    requires WrappedAt(ls, prev, k)
    ensures WrappedAt(Highlight(ls, sel), sel, if sel == prev then k + 1 else 1)
  {
    var r := Highlight(ls, sel);
    var j: nat := if sel == prev then k else 0;
    assert Get(ls, sel) == Wrapped(Name(sel), j) by {
      WrapZero(Name(sel));
    }
    OneMoreWrap(Name(sel), j);
    forall o | o != sel ensures Get(r, o) == Name(o) {
      StripPlain(ls, prev, k, o);
    }
  }

  /** Highlighting a label, whichever label was highlighted before (or
      none), leaves exactly that label marked and the others plain. */
  lemma HighlightShows(ls: Labels, prev: FilterLabel, sel: FilterLabel)
    requires Shows(ls, prev) || Plain(ls)
    ensures Shows(Highlight(ls, sel), sel)
  {
    var k: nat := 0;
    if Plain(ls) {
      WrapZero(Name(prev));
    } else {
      k :| k >= 1 && Get(ls, prev) == Wrapped(Name(prev), k);
    }
    HighlightWrapped(ls, prev, k, sel);
  }

  /** The labels as the view builds them: TOTAL highlighted. */
  const INITIAL_LABELS := Highlight(Labels(MES_TEXT, ANIO_TEXT, TOTAL_TEXT), TotalLabel)

  lemma InitialLabelsShowTotal()
    ensures Shows(INITIAL_LABELS, TotalLabel)
  {
    var plain := Labels(MES_TEXT, ANIO_TEXT, TOTAL_TEXT);
    assert Plain(plain);
    HighlightShows(plain, TotalLabel, TotalLabel);
  }

  // ---------------------------------------------------------------------
  // Balance text and banner colour.

  const RED := "#d63429"
  const BLUE := "#123EAF"

  /** The banner colour for a balance: red exactly when it is negative. */
  function BannerColour(balance: real): (c: string)
    ensures c == RED <==> balance < 0.0
    ensures c == BLUE <==> balance >= 0.0
  {
    if balance < 0.0 then RED else BLUE
  }

  /** onBalanceChange: the balance text and the banner colour. */
  function OnBalanceChange(v: View, balance: real): (r: View)
    ensures r.balanceText == Fixed2(balance)
    ensures r.colour == RED <==> balance < 0.0
    ensures r.(balanceText := v.balanceText, colour := v.colour) == v
  {
    v.(balanceText := Fixed2(balance), colour := BannerColour(balance))
  }

  function SetBalance(v: View, balance: real): (r: View)
    ensures r.balanceText == Fixed2(balance)
    ensures r.(balanceText := v.balanceText) == v
  {
    v.(balanceText := Fixed2(balance))
  }

  function UpdateBannerAndFiltersColor(v: View, colour: string): (r: View)
    ensures r.colour == colour && r.(colour := v.colour) == v
  {
    v.(colour := colour)
  }

  // ---------------------------------------------------------------------
  // Help mode as the view records it.

  function SetHelpStep(v: View, step: int): (r: View)
    ensures r.helpStep == step && r.(helpStep := v.helpStep) == v
  {
    v.(helpStep := step)
  }

  function EnterHelpMode(v: View): (r: View)
    ensures r.inHelpMode && r.helpStep == 1
    ensures r.(inHelpMode := v.inHelpMode, helpStep := v.helpStep, helpText := v.helpText) == v
  {
    v.(inHelpMode := true, helpStep := 1, helpText := ("", ""))
  }

  function ExitHelpMode(v: View): (r: View)
    ensures !r.inHelpMode && r.helpStep == 0
    ensures r.(inHelpMode := v.inHelpMode, helpStep := v.helpStep, helpText := v.helpText) == v
  {
    v.(inHelpMode := false, helpStep := 0, helpText := ("", ""))
  }

  function UpdateHelpText(v: View, a: string, b: string): (r: View)
    ensures r.helpText == (a, b) && r.(helpText := v.helpText) == v
  {
    v.(helpText := (a, b))
  }

  /** The view after construction: no panels, no selection, "0.00" on a blue
      banner, TOTAL highlighted, not in help mode. */
  const INITIAL_VIEW := View([], -1, "0.00", BLUE, INITIAL_LABELS, false, 0, ("", ""))

  // ---------------------------------------------------------------------
  // Focus traversal in the dialogs.

  /** Java's % on int: the remainder takes the sign of the dividend and
      differs from it by a multiple of the divisor. */
  function JavaRem(a: int, n: int): (r: int)
    requires n > 0
    ensures a >= 0 ==> 0 <= r < n
    ensures a < 0 ==> -n < r <= 0
    ensures a >= 0 ==> r == a % n
    ensures (a - r) % n == 0
  {
    if a >= 0 then
      DivMod(a, n);
      MultipleMod(a / n, n);
      a % n
    else
      var b := -a;
      DivMod(b, n);
      MultipleMod(-(b / n), n);
      assert a - -(b % n) == -(b / n) * n;
      -(b % n)
  }

  lemma DivMod(x: int, n: int)
    requires n > 0
    ensures x == (x / n) * n + x % n
  {
  }

  /** A multiple of n lying strictly between -n and n is zero. */
  lemma SmallMultiple(k: int, n: int)
    requires n > 0 && -n < k * n < n
    ensures k == 0
  {
  }

  lemma MultipleMod(k: int, n: int)
    requires n > 0
    ensures (k * n) % n == 0
  {
    var x := k * n;
    DivMod(x, n);
    assert x % n == (k - x / n) * n;
    SmallMultiple(k - x / n, n);
  }

  /** The sign rule and the congruence leave one candidate: any r that
      differs from a by a multiple of n and lies on the dividend's side of
      zero, within n of it, is Java's remainder. */
  lemma JavaRemDetermined(a: int, n: int, r: int)
    requires n > 0 && (a - r) % n == 0
    requires a >= 0 ==> 0 <= r < n
    requires a < 0 ==> -n < r <= 0
    ensures r == JavaRem(a, n)
  {
    var j := JavaRem(a, n);
    DivMod(a - r, n);
    DivMod(a - j, n);
    var k := (a - r) / n - (a - j) / n;
    assert j - r == k * n;
    SmallMultiple(k, n);
  }

  /** getComponentAfter: the index after `i`, where -1 (a component not in
      the order) leads to the first. */
  function FocusNext(i: int, n: int): (r: int)
    requires n > 0 && -1 <= i < n
    ensures 0 <= r < n
    ensures r == (if i == n - 1 then 0 else i + 1)
  {
    JavaRem(i + 1, n)
  }

  /** getComponentBefore: the index before `i`, wrapping from the first to
      the last; -1 (a component not in the order) leads to the one before
      the last. */
  function FocusPrev(i: int, n: int): (r: int)
    requires n > 0 && -1 <= i < n
    ensures 0 <= r < n
    ensures 0 <= i ==> r == (if i == 0 then n - 1 else i - 1)
    ensures i == -1 ==> r == (if n == 1 then 0 else n - 2)
  {
    JavaRem(i - 1 + n, n)
  }

  /** Forward and backward traversal undo each other. */
  lemma FocusInverse(i: int, n: int)
    requires n > 0 && 0 <= i < n
    ensures FocusPrev(FocusNext(i, n), n) == i
    ensures FocusNext(FocusPrev(i, n), n) == i
  {
  }

  lemma MulAtLeast(d: int, n: int)
    requires d >= 1 && n > 0
    ensures d * n >= n
  {
    var i := 1;
    while i < d
      invariant 1 <= i <= d && i * n >= n
    {
      i := i + 1;
    }
  }

  /** Quotient and remainder are unique. */
  lemma ModUnique(x: int, n: int, q: int, r: int)
    requires n > 0 && 0 <= r < n && x == q * n + r
    ensures x % n == r
  {
    var d := q - x / n;
    assert d * n == x % n - r;
    if d >= 1 {
      MulAtLeast(d, n);
    }
    if d <= -1 {
      MulAtLeast(-d, n);
    }
  }

  /** Adding one to a number moves its remainder one up, wrapping to 0. */
  lemma ModStep(a: int, n: int)
    requires n > 0
    ensures (a + 1) % n == if a % n == n - 1 then 0 else a % n + 1
  {
    var q, r := a / n, a % n;
    assert a == q * n + r;
    if r == n - 1 {
      ModUnique(a + 1, n, q + 1, 0);
    } else {
      ModUnique(a + 1, n, q, r + 1);
    }
  }

  function FocusNextTimes(i: int, n: int, k: nat): (r: int)
    requires n > 0 && 0 <= i < n
    ensures 0 <= r < n
  {
    if k == 0 then i else FocusNext(FocusNextTimes(i, n, k - 1), n)
  }

  /** Going forward k times lands on (i + k) mod n: a full round of n steps
      comes back to the start. */
  lemma {:induction false} FocusCycle(i: int, n: int, k: nat)
    requires n > 0 && 0 <= i < n
    ensures FocusNextTimes(i, n, k) == (i + k) % n
  {
    if k > 0 {
      FocusCycle(i, n, k - 1);
      ModStep(i + k - 1, n);
    } else {
      assert i % n == i;
    }
  }
}
